=== FILE: README.md ===
# Relay-switch device API: a Dafny model of the device and channel state logic

The system is a small HTTP API for relay-switch controllers. A **device** is identified by an
externally supplied `deviceId` string (initialize requires a UUIDv4; register accepts any
non-empty string). It has a token, an `active`/`inactive` status,
an optional owning user, a human-readable name and an ordered list of **channels**. Each channel
has a name, an on/off status and an optional timeout. **Users** own devices through a list of
device ObjectIds.

The routes register, initialize, rename, toggle, assign and unregister devices. They also add,
delete, toggle and rename channels. A device-token gate protects the two routes the devices
themselves call. Login re-issues a token to every device the user owns.

This project models that logic as pure functions over an immutable store and proves properties of
the model.

- **Wrappers / Seqs** (`wrappers.dfy`): `Option`, `Result` and the HTTP failure classes. The
  `findOne` and `Array.filter` semantics used by every route live here.
- **Decimal**, **Naming**: how a counter is rendered into `"Device n"` / `"Channel n"`. The
  default-name probe loop is a terminating recursive function; termination comes from a pigeonhole
  argument.
- **Schema**: the Mongoose schemas as datatypes, with their defaults, the status enum and the
  `required` validation that `save` applies.
- **Validate**: the Joi record validator, with the UUIDv4 pattern as a per-position character class.
- **Channels**: the channel-list operations (append, delete-and-renumber, toggle, rename) and the
  `{name: status}` object.
- **Repository**: the store, its lookups, and the invariant `Valid` that every reachable store
  keeps.
- **DeviceGate**: the device-token check.
- **DeviceRoutes**, **UserRoutes**: one function per route.
- **Invariants**: preservation of `Valid` by every route. It also records which routes keep the
  channel invariants:
  - I3: channels are named "Channel 1".."Channel k".
  - I4: an inactive device has every channel off.

  Two concrete request sequences break them.
- **Properties**: inverse pairs and other relations between routes.

The model follows the code, including where the code does not do what its route names and error
messages suggest:

- A duplicate `deviceId`, a duplicate device name, a duplicate sibling channel name and deleting a
  switched-on channel all answer 400, not 409. Only the account sign-up answers 409.
- Device names are unique across all devices (the update-name route looks names up globally). The
  model does not scope them per user.
- Toggling a channel does not look at the device's status. It can therefore switch a channel on
  under an inactive device (`Invariants.ToggleChannelBreaksCascade`).
- Renaming a channel may pick "Channel n" for a later n. The next added channel then duplicates
  it (`Invariants.RenameThenAddDuplicates`). Deleting a channel renumbers the list and overwrites
  custom names.

One deliberate departure from the code: the device schema declares no `token` path, so under
Mongoose's default strict mode a saved device would drop it, yet every route reads and writes
`device.token`. The model gives the device a token field, as the routes use it.

## Model

| member | source | states |
|---|---|---|
| Schema.ParseStatus | models/device.js:33-37 | only "active" and "inactive" are statuses; any other string is rejected by the enum |
| Schema.NewChannel | models/device.js:3-22 | a channel created with only a name is off and has a null time and date |
| Schema.NewDevice | models/device.js:27-50 | a device created without status or channels is active with no channels; the given fields are kept |
| Repository.Insert | models/device.js:28-32 | saving a new device succeeds exactly when its deviceId is non-empty, its channel names are non-empty and no stored device has the deviceId; otherwise 500 and nothing is written |
| Repository.DeviceIndex | src/routes/objects.js:30 | the lookup by deviceId finds the first device with that id, and finds nothing exactly when no device has it |
| Repository.DeviceIndexByKey | src/routes/objects.js:105 | the lookup by device ObjectId finds the first device with that key, and finds nothing exactly when no device has it |
| Repository.DeviceIndexByName | src/routes/objects.js:100 | the lookup by name finds the first device with that name, and finds nothing exactly when no device has it |
| Repository.DeviceIndexByChannel | src/routes/objects.js:333 | the lookup by channel ObjectId finds the first device holding such a channel, and finds nothing exactly when no device does |
| Repository.UserIndex | src/routes/objects.js:22 | `User.findById` finds the first user with that ObjectId, and finds nothing exactly when no user has it |
| Validate.UuidV4Characterized | app/validate.js:6-12 | a string matches the pattern iff it has 36 characters, hyphens at 8, 13, 18 and 23, '4' at 14, one of 8 9 a A b B at 19 and hex digits everywhere else |
| Validate.UuidV4CaseInsensitive | app/validate.js:9 | two strings that differ only in letter case are accepted alike |
| Validate.ValidateDevice | app/validate.js:4-18 | a record is accepted iff the deviceId matches the pattern and name and token are present strings; a record missing any field is rejected |
| DeviceGate.Check | app/verify-device.js:3-27 | 404 iff no device has the id, else 401 iff its token differs from the header, else allow; the store is only read |
| DeviceGate.AllowIff | app/verify-device.js:9-22 | with unique ids the gate allows iff some device has that id and exactly the header as its token |
| DeviceGate.OpenWithoutToken | app/verify-device.js:17 | a device stored without a token is let through by a request without an authorization header |
| Decimal.ParseNatToString | src/routes/objects.js:41 | the decimal rendering of the counter reads back as the same number |
| Naming.LabelInjective | src/routes/objects.js:41 | "Device n" and "Device m" are the same string iff n = m |
| Naming.ProbeFrom | src/routes/objects.js:37-48 | the probe from a counter stops at the first free "Device n", and never beyond the number of devices plus one |
| Naming.FreeIndex | src/routes/objects.js:436-447 | the chosen n is at most the number of devices plus one, "Device n" is free and every smaller default name is taken |
| Naming.FreeIndexIsLeast | src/routes/objects.js:37-48 | the chosen n is the least free one: any m that is free with all smaller names taken is n |
| Properties.FreeIndexAfterSequence | src/routes/objects.js:37-48 | when the devices are named "Device 1".."Device k" in order, the next default name is "Device k+1" |
| Properties.FreeIndexReusesGap | src/routes/objects.js:37-48 | when no device is named "Device 1", that name is handed out again |
| DeviceRoutes.Register | src/routes/objects.js:16-70 | 404 iff the user is unknown, 400 iff the deviceId is taken, 500 iff it is empty; no other failure; otherwise one active device owned by the user, named by the probe, with the header token, is appended and its ObjectId pushed onto the user's list, nothing else changes |
| Properties.RegisterThenUnregister | src/routes/objects.js:155-196 | unregistering a device right after registering it gives back the store, apart from the spent ObjectId |
| DeviceRoutes.ListDevices | src/routes/objects.js:72-88 | 400 iff the userId is missing; otherwise exactly the devices owned by that user |
| DeviceRoutes.FilterDevices | src/routes/objects.js:390-415 | 400 iff the userId is missing, 404 iff no such user, no other failure; otherwise exactly the devices owned by that user |
| DeviceRoutes.UpdateName | src/routes/objects.js:90-121 | 400 iff a parameter is missing or another device holds the name, 404 iff the ObjectId names no device, no other failure; otherwise only that device's name changes |
| DeviceRoutes.WithStatus | src/routes/objects.js:136-143 | the new status is set; going inactive switches every channel off and keeps everything else about them; going active leaves the channels alone |
| Channels.AllOff | src/routes/objects.js:140-142 | every channel is switched off and keeps its ObjectId, name and timeout; the list length is kept |
| DeviceRoutes.ToggleStatus | src/routes/objects.js:123-153 | 404 iff the deviceId is unknown; otherwise the status flips, with the cascade |
| Properties.ToggleStatusTwice | src/routes/objects.js:135-143 | flipping twice restores the status and leaves every channel of the device off |
| Properties.ToggleStatusTwiceInactive | src/routes/objects.js:135-143 | on an inactive device whose channels are all off, flipping twice changes nothing |
| DeviceRoutes.Unregister | src/routes/objects.js:155-196 | 404 for an unknown user or device, 500 for an unowned device, 403 for another user's device; no other failure; otherwise the device is removed and the owner record changes only by its ObjectId being pulled from the device list, other users untouched |
| DeviceRoutes.Pull | src/routes/objects.js:185 | the pulled list holds exactly the old entries other than the key |
| DeviceRoutes.PullAppended | src/routes/objects.js:185 | pulling a key just pushed onto a list without it gives back the list |
| Channels.Append | src/routes/objects.js:213-224 | the existing channels stay in order and one off channel named "Channel k+1", with the new ObjectId and null timeout, is added last |
| Channels.AppendKeepsContiguous | src/routes/objects.js:218 | appending to a list named "Channel 1".."Channel k" gives one named "Channel 1".."Channel k+1" |
| DeviceRoutes.AddChannel | src/routes/objects.js:198-236 | 404 iff the device is unknown; otherwise only that device's channel list is appended to |
| Channels.Remove | src/routes/objects.js:252-275 | 404 iff no channel has the id, 400 iff the first match is on, no other failure; otherwise a shorter list, renumbered, without the id |
| Channels.Renumber | src/routes/objects.js:273-275 | the i-th channel is renamed "Channel i+1" and keeps its ObjectId, status and timeout; the list length is kept |
| Channels.RemoveExactlyOne | src/routes/objects.js:267-275 | with distinct ids, deleting an off channel k succeeds and keeps every other channel in order with only its name rewritten to its new position |
| DeviceRoutes.DeleteChannel | src/routes/objects.js:238-285 | 404 for an unknown device or channel, 400 for a switched-on channel, no other failure; otherwise only that device's channels change, and they end up contiguous |
| Properties.AppendThenRemove | src/routes/objects.js:267-275 | deleting the channel just added to a contiguous list gives back the list |
| Properties.AddChannelThenDelete | src/routes/objects.js:198-285 | adding a channel and deleting it again gives back the store, apart from the spent ObjectId |
| Channels.Toggle | src/routes/objects.js:300-311 | 404 iff no channel has the id; otherwise exactly the first match has its status negated |
| DeviceRoutes.ToggleChannel | src/routes/objects.js:287-321 | 404 for an unknown device or channel; otherwise only that channel's status changes and the new list is answered |
| Properties.ToggleTwice | src/routes/objects.js:311 | negating the same channel twice gives back the list |
| Properties.ToggleChannelTwice | src/routes/objects.js:287-321 | toggling the same channel twice gives back the store |
| Channels.Rename | src/routes/objects.js:339-357 | 404 iff no channel has the id, 400 iff a sibling with another id has the name, no other failure; otherwise only the target's name changes |
| Channels.RenameKeepsDistinctNames | src/routes/objects.js:348-357 | a successful rename keeps sibling names pairwise distinct |
| Properties.RenameBack | src/routes/objects.js:348-357 | renaming a channel and then back to its old name gives back the list |
| DeviceRoutes.RenameChannel | src/routes/objects.js:323-368 | 400 when a parameter is missing, 404 iff no device holds the channel, 400 iff the sibling check fails, no other failure; otherwise only that channel's name changes |
| DeviceRoutes.CheckActivation | src/routes/objects.js:370-388 | true iff some device with that id is active |
| DeviceRoutes.Initialize | src/routes/objects.js:417-473 | a known id answers with its stored credentials and writes nothing; a new id is stored, active and unowned, under the probed name iff the record validates, else 400 |
| Properties.InitializeIdempotent | src/routes/objects.js:421-431 | initializing the same id again, whatever new token is minted, writes nothing and answers the same credentials |
| Properties.InitializeNamesInOrder | src/routes/objects.js:436-447 | two devices initialized in turn on an empty store are named "Device 1" and "Device 2" |
| DeviceRoutes.SetStatus | src/routes/objects.js:475-506 | 404 iff the device is unknown, 500 iff the status is outside the enum, no other failure; otherwise the status is set with the cascade |
| DeviceRoutes.SetStatusRoute | src/routes/objects.js:475 | a gate denial answers the gate's failure before the handler runs; an allowed request gets the handler's answer |
| DeviceRoutes.ChannelsRoute | src/routes/objects.js:508-531 | behind the gate, the answer is the device's name-to-status object |
| Channels.StatusMap | src/routes/objects.js:521-524 | every channel name other than `"__proto__"` is a key, every key is a channel name, and `"__proto__"` is never a key, since assigning it on a plain object runs the prototype setter instead of creating a key |
| Channels.StatusMapLast | src/routes/objects.js:521-524 | a channel with no later namesake is a key exactly when its name is not `"__proto__"`, and then reports its own status, so the later of two namesakes wins |
| Channels.StatusMapReports | src/routes/objects.js:521-524 | on a contiguous list, key "Channel i+1" reports channel i's status |
| Channels.StatusMapSize | src/routes/objects.js:521-524 | on a contiguous list, the object has one key per channel |
| DeviceRoutes.AssignUser | src/routes/objects.js:533-563 | 404 iff the device or the user is unknown; otherwise only the device's owner changes |
| UserRoutes.LoginIndex | src/routes/user.js:16-19 | the first user whose username or email is the given string (no earlier user matches), and none exactly when no user matches |
| UserRoutes.FanOut | src/routes/user.js:40 | exactly the user's devices get the new token; all others are unchanged |
| UserRoutes.Login | src/routes/user.js:11-48 | 401 iff no user matches or the password check fails; otherwise the user's ObjectId is answered and only device tokens change, by the fan-out |
| UserRoutes.SignUp | src/routes/user.js:50-77 | 409 iff some user has the username or the email; otherwise exactly one user with those fields and no devices is appended |
| Properties.SignUpThenLogin | src/routes/user.js:11-48 | a new account can log in by username right away, unless an older account uses that username as its email |
| Invariants.StepPreservesValid | src/routes/objects.js:16-563 | every route keeps unique deviceIds, names and ObjectIds, conforming documents, distinct channel ids and ObjectIds below the allocator |
| Invariants.RegisterKeepsValid | src/routes/objects.js:50-63 | registering keeps the store invariant |
| Invariants.InitializeKeepsValid | src/routes/objects.js:457-458 | initializing keeps the store invariant |
| Invariants.UpdateNameKeepsValid | src/routes/objects.js:99-109 | the rename's holder check keeps device names unique |
| Invariants.UnregisterKeepsValid | src/routes/objects.js:184-189 | unregistering keeps the store invariant |
| Invariants.AddChannelKeepsValid | src/routes/objects.js:213-224 | adding a channel keeps the store invariant |
| Invariants.DeleteChannelKeepsValid | src/routes/objects.js:267-278 | deleting a channel keeps the store invariant |
| Invariants.ToggleChannelKeepsValid | src/routes/objects.js:311-314 | toggling a channel keeps the store invariant |
| Invariants.RenameChannelKeepsValid | src/routes/objects.js:357-360 | renaming a channel keeps the store invariant |
| Invariants.LoginKeepsValid | src/routes/user.js:40 | the token fan-out keeps the store invariant |
| Invariants.StepKeepsChannelInvariants | src/routes/objects.js:16-563 | every route but the channel toggle keeps I4, and every route but the channel rename keeps I3 |
| Invariants.AddChannelKeepsChannelInvariants | src/routes/objects.js:213-224 | adding an off channel keeps I4 and, named after the new length, keeps I3 |
| Invariants.DeleteChannelKeepsChannelInvariants | src/routes/objects.js:267-275 | deleting and renumbering keeps I3 and I4 |
| Invariants.StatusChangeKeepsChannelInvariants | src/routes/objects.js:136-143 | a status change with its cascade keeps I3 and I4 |
| Invariants.ToggleChannelKeepsContiguous | src/routes/objects.js:311 | toggling a channel keeps I3 |
| Invariants.RenameChannelKeepsCascade | src/routes/objects.js:357 | renaming a channel keeps I4 |
| Invariants.ToggleChannelBreaksCascade | src/routes/objects.js:311 | on an inactive device, toggling an off channel succeeds and switches it on, so I4 fails afterwards |
| Invariants.RenameThenAddDuplicates | src/routes/objects.js:218 | after renaming "Channel 1" to "Channel 2", the next added channel is also "Channel 2" and the status object has fewer keys than channels |
| Invariants.RenameToProtoHidesChannel | src/routes/objects.js:521-524 | a channel renamed to `"__proto__"` (the rename accepts any unused name) gets no key in the status object |
| Invariants.OnlySignUpConflicts | src/routes/user.js:58 | a route answers 409 only if it is the sign-up, and the sign-up fails with nothing but 409 |

## Left out

- Express routing, request and response objects, and `console` logging. Each handler is a function
  that returns a result or an error class with its HTTP status.
- The bearer-token middleware `verifyToken`. app/verify-token.js is not part of this model, so the
  routes behind it (register, list, update-status, unregister and the three channel routes at
  src/routes/objects.js:16, 72, 123, 155, 199, 238, 287) are modelled as if it let the request
  through. The routes update-name (90), update-channel-name (323), check-activation (370),
  filter (390), initialize (417) and assign-user (533) carry no middleware at all, so for them
  letting every request through is exactly the source's behaviour.
- `jwt.sign` and `bcrypt.compare` are foreign cryptography. The minted token is an argument and
  the password comparison a function-typed parameter.
- Concurrency. Every request runs alone against the store, so the race in the name probe and the
  two separate writes in register and unregister are not modelled.
- `createdAt` (`Date.now`), src/routes/time.js (wall-clock time) and server.js (bootstrap, CORS,
  body parsing).
- Store failures and the 500 answers they cause. The store never fails in the model.
- In the add-channel route the first lookup sits outside the `try`. Its failure path is not
  modelled. The later "not found" after the update cannot happen without concurrency.
- Malformed ObjectId strings (Mongoose cast errors, answered 500). ObjectIds are natural numbers,
  so an id is only ever given in its canonical lower-case hex form. Mongoose casts an id without
  regard to case, while several routes then compare ids as strings (`toString()` at
  src/routes/objects.js:101, 177, 253, 302, 341, 350). An upper-case id would therefore find its
  document and then fail the comparison: the owner of a device would get 403 at 177, and the
  "Channel not found" 404 at 344-346, which the model has no path for, would become reachable.
- Non-string request values. Every request value is modelled as a string (or an ObjectId).
  `express.json()` and `express.urlencoded({ extended: true })` (server.js:26-29), like Express's
  default query parser, can also deliver objects, and Mongoose without `sanitizeFilter` reads a
  value such as `{"$ne": null}` as a query operator. With it, `deviceId` in the initialize body
  makes the lookup at src/routes/objects.js:421 match the first stored device, and lines 425-429
  then answer that device's deviceId and token, which pass the device gate. The same turns
  assign-user's `userId` (546), login's `usernameOrEmail` (src/routes/user.js:16-19), sign-up's
  `username`/`email` (user.js:55) and the query `deviceId` of update-status, unregister, the
  channel routes and check-activation into operator queries.
- Missing request parameters that the source reads without a presence check. They are modelled as
  always present strings: `deviceId` from the query of register, update-status, unregister and the
  three channel routes and of check-activation (src/routes/objects.js:18, 124, 156, 200, 239, 288,
  371) and from the body of initialize (418); `status` in the body of set-status (477); `username`
  and `email` in the body of sign-up (src/routes/user.js:51); `usernameOrEmail` and `password` in
  the body of login (src/routes/user.js:12). Mongoose drops a filter key whose
  value is `undefined`, so without the parameter those lookups match the first stored document:
  initialize would answer an existing device's credentials, update-status would toggle the first
  device, check-activation would answer whether any device is active, and login without
  `usernameOrEmail` would query `$or: [{}, {}]` and compare the password against the first stored
  user. Only the parameters the
  source checks for presence (the update-name and update-channel-name inputs, `userId` of list and
  filter) are `Option`s.
- Channel timeout and date setters. No code sets them; only their null defaults are modelled.
- Password hashing on sign-up. models/user.js is not part of this model, so the password is stored
  as given.
- DeviceRoutes.SetStatus: the model does not re-run document validation on the rest of the device
  when it saves. Under `Repository.Valid` every stored device already conforms, so the difference
  does not show on reachable stores.
- Mongoose strict mode would drop a field the device schema does not declare, which is the case
  for `token`. The model keeps the token, as the routes use it.
- JSON key order of the `{name: status}` object. `Channels.StatusMap` is a map, so the order in
  which JavaScript lists integer-like and other keys is not modelled; which keys exist and their
  values are.

=== FILE: channels.dfy ===
/**
 * The channel list of one device and the operations the channel routes apply to it:
 * append, delete with renumbering, toggle, rename, the name-to-status map, and the cascade
 * that switches every channel off.
 */
module Channels {
  import opened Wrappers
  import opened Seqs
  import opened Schema
  import opened Naming

  /** Invariant I3: the names are exactly "Channel 1" .. "Channel k" in list order. */
  predicate Contiguous(cs: seq<Channel>)
  {
    forall i :: 0 <= i < |cs| ==> cs[i].name == ChannelName(i + 1)
  }

  /** Sub-document ObjectIds are distinct within one device. */
  predicate DistinctIds(cs: seq<Channel>)
  {
    forall i, j :: 0 <= i < j < |cs| ==> cs[i].id != cs[j].id
  }

  predicate DistinctNames(cs: seq<Channel>)
  {
    forall i, j :: 0 <= i < j < |cs| ==> cs[i].name != cs[j].name
  }

  /** Position of the channel with ObjectId `id` (the first one, as `find` does). */
  function IndexOf(cs: seq<Channel>, id: nat): (r: Option<nat>)
    ensures r.Some? ==> r.value < |cs| && cs[r.value].id == id
    ensures r.Some? ==> forall j :: 0 <= j < r.value ==> cs[j].id != id
    ensures r.None? <==> forall j :: 0 <= j < |cs| ==> cs[j].id != id
  {
    Find(cs, (c: Channel) => c.id == id)
  }

  /** Adding a channel: a new last channel named after the new length, switched off. */
  function Append(cs: seq<Channel>, id: nat): (r: seq<Channel>)
    ensures |r| == |cs| + 1
    ensures r[..|cs|] == cs
    ensures r[|cs|].id == id && r[|cs|].name == ChannelName(|cs| + 1)
    ensures !r[|cs|].status && r[|cs|].timeout.time.None? && r[|cs|].timeout.date.None?
  {
    cs + [NewChannel(id, ChannelName(|cs| + 1))]
  }

  lemma AppendKeepsContiguous(cs: seq<Channel>, id: nat)
    requires Contiguous(cs)
    ensures Contiguous(Append(cs, id))
  {
    var r := Append(cs, id);
    forall i | 0 <= i < |r|
      ensures r[i].name == ChannelName(i + 1)
    {
      if i < |cs| {
        assert r[i] == r[..|cs|][i];
      }
    }
  }

  /** Renaming the i-th remaining channel to "Channel i+1"; ids, statuses and timeouts stay. */
  function Renumber(cs: seq<Channel>): (r: seq<Channel>)
    ensures |r| == |cs| && Contiguous(r)
    ensures forall i :: 0 <= i < |cs| ==>
              r[i].id == cs[i].id && r[i].status == cs[i].status && r[i].timeout == cs[i].timeout
  {
    seq(|cs|, i requires 0 <= i < |cs| => cs[i].(name := ChannelName(i + 1)))
  }

  /**
   * Deleting a channel: 404 when no channel has the id, 400 when it is switched on; otherwise
   * every channel with that id is dropped and the rest renumbered.
   */
  function Remove(cs: seq<Channel>, id: nat): (r: Result<seq<Channel>>)
    ensures r == Err(NotFound) <==> forall j :: 0 <= j < |cs| ==> cs[j].id != id
    ensures r == Err(BadRequest) <==> IndexOf(cs, id).Some? && cs[IndexOf(cs, id).value].status
    ensures r.Err? ==> r.failure in {NotFound, BadRequest}
    ensures r.Ok? ==> Contiguous(r.value) && |r.value| < |cs|
    ensures r.Ok? ==> forall j :: 0 <= j < |r.value| ==> r.value[j].id != id
  {
    match IndexOf(cs, id)
    case None => Err(NotFound)
    case Some(k) =>
      if cs[k].status then Err(BadRequest)
      else
        var kept := Filter(cs, (c: Channel) => c.id != id);
        assert cs[k] !in kept;
        Ok(Renumber(kept))
  }

  /**
   * With distinct ids a delete of a switched-off channel drops exactly the target and renumbers the
   * rest.
   */
  lemma RemoveDropsTarget(cs: seq<Channel>, k: nat)
    requires DistinctIds(cs)
    requires k < |cs| && !cs[k].status
    ensures Remove(cs, cs[k].id) == Ok(Renumber(cs[..k] + cs[k + 1..]))
  {
    var id := cs[k].id;
    FilterSingle(cs, (c: Channel) => c.id != id, k);
  }

  /**
   * Spelled out: one channel fewer, the others in their order with their ids, statuses and
   * timeouts, and the i-th renamed "Channel i+1" whatever it was called.
   */
  lemma RemoveExactlyOne(cs: seq<Channel>, k: nat)
    requires DistinctIds(cs)
    requires k < |cs| && !cs[k].status
    ensures var r := Remove(cs, cs[k].id);
      && r.Ok? && |r.value| == |cs| - 1
      && forall i :: 0 <= i < |cs| - 1 ==>
           r.value[i] == (if i < k then cs[i] else cs[i + 1]).(name := ChannelName(i + 1))
  {
    RemoveDropsTarget(cs, k);
    forall i | 0 <= i < |cs| - 1
      ensures Renumber(cs[..k] + cs[k + 1..])[i] == (if i < k then cs[i] else cs[i + 1]).(name := ChannelName(i + 1))
    {
      RenumberKeptAt(cs, k, i);
    }
  }

  /** Position i after deleting position k and renumbering. */
  lemma RenumberKeptAt(cs: seq<Channel>, k: nat, i: nat)
    requires k < |cs| && i < |cs| - 1
    ensures Renumber(cs[..k] + cs[k + 1..])[i] == (if i < k then cs[i] else cs[i + 1]).(name := ChannelName(i + 1))
  {
    var kept := cs[..k] + cs[k + 1..];
    assert kept[i] == if i < k then cs[i] else cs[i + 1];
  }

  /** Turning a device's channels off (the inactive cascade); nothing but the statuses changes. */
  function AllOff(cs: seq<Channel>): (r: seq<Channel>)
    ensures |r| == |cs|
    ensures forall i :: 0 <= i < |cs| ==>
              !r[i].status && r[i].id == cs[i].id && r[i].name == cs[i].name && r[i].timeout == cs[i].timeout
  {
    seq(|cs|, i requires 0 <= i < |cs| => cs[i].(status := false))
  }

  /** Toggling: 404 when no channel has the id; otherwise exactly the first such channel is negated. */
  function Toggle(cs: seq<Channel>, id: nat): (r: Result<seq<Channel>>)
    ensures r.Err? <==> forall j :: 0 <= j < |cs| ==> cs[j].id != id
    ensures r.Err? ==> r.failure == NotFound
    ensures r.Ok? ==> |r.value| == |cs| && IndexOf(cs, id).Some?
    ensures r.Ok? ==> var k := IndexOf(cs, id).value;
              && r.value[k].status == !cs[k].status
              && r.value[k].(status := cs[k].status) == cs[k]
              && forall j :: 0 <= j < |cs| && j != k ==> r.value[j] == cs[j]
  {
    match IndexOf(cs, id)
    case None => Err(NotFound)
    case Some(k) => Ok(cs[k := cs[k].(status := !cs[k].status)])
  }

  /**
   * Renaming: 404 when no channel has the id, 400 when a channel with another id already has the
   * name; otherwise only the target's name changes.
   */
  function Rename(cs: seq<Channel>, id: nat, newName: string): (r: Result<seq<Channel>>)
    ensures r == Err(NotFound) <==> forall j :: 0 <= j < |cs| ==> cs[j].id != id
    ensures r == Err(BadRequest) <==>
              IndexOf(cs, id).Some? && exists j :: 0 <= j < |cs| && cs[j].name == newName && cs[j].id != id
    ensures r.Err? ==> r.failure in {NotFound, BadRequest}
    ensures r.Ok? ==> |r.value| == |cs| && IndexOf(cs, id).Some?
    ensures r.Ok? ==> var k := IndexOf(cs, id).value;
              && r.value[k].name == newName
              && r.value[k].(name := cs[k].name) == cs[k]
              && forall j :: 0 <= j < |cs| && j != k ==> r.value[j] == cs[j]
  {
    match IndexOf(cs, id)
    case None => Err(NotFound)
    case Some(k) =>
      match Find(cs, (c: Channel) => c.name == newName && c.id != id)
      case Some(_) => Err(BadRequest)
      case None => Ok(cs[k := cs[k].(name := newName)])
  }

  /** A successful rename keeps sibling names distinct. */
  lemma RenameKeepsDistinctNames(cs: seq<Channel>, id: nat, newName: string)
    requires DistinctIds(cs) && DistinctNames(cs)
    requires Rename(cs, id, newName).Ok?
    ensures DistinctNames(Rename(cs, id, newName).value)
  {
    var r := Rename(cs, id, newName).value;
    var k := IndexOf(cs, id).value;
    forall i, j | 0 <= i < j < |r|
      ensures r[i].name != r[j].name
    {
      if i == k {
        assert cs[j].id != id;
      } else if j == k {
        assert cs[i].id != id;
      }
    }
  }

  /**
   * The one name a plain object cannot take as an own key by assignment: `obj["__proto__"] = b`
   * runs the prototype setter, which ignores a boolean, so no key is created.
   */
  const ProtoKey: string := "__proto__"

  /**
   * The `{name: status}` object of the channel read route: keys are assigned in list order, so
   * when two channels share a name the later one wins, and a channel named `ProtoKey` is absent.
   */
  function StatusMap(cs: seq<Channel>): (m: map<string, bool>)
    ensures ProtoKey !in m
    ensures forall i :: 0 <= i < |cs| && cs[i].name != ProtoKey ==> cs[i].name in m
    ensures forall n :: n in m ==> exists i :: 0 <= i < |cs| && cs[i].name == n
    decreases |cs|
  {
    if cs == [] then map[]
    else
      var init := cs[..|cs| - 1];
      var last := cs[|cs| - 1];
      var m := StatusMap(init);
      assert forall i :: 0 <= i < |init| ==> init[i] == cs[i];
      if last.name == ProtoKey then m else m[last.name := last.status]
  }

  /** On a contiguously named list the map has exactly one key per channel. */
  lemma StatusMapSize(cs: seq<Channel>)
    requires Contiguous(cs)
    ensures |StatusMap(cs).Keys| == |cs|
  {
    StatusMapKeys(cs);
    LabelsSize("Channel ", |cs|);
  }

  /** On a contiguously named list "Channel i+1" maps to the i-th channel's status. */
  lemma StatusMapReports(cs: seq<Channel>, i: nat)
    requires Contiguous(cs) && i < |cs|
    ensures ChannelName(i + 1) in StatusMap(cs)
    ensures StatusMap(cs)[ChannelName(i + 1)] == cs[i].status
  {
    ContiguousDistinct(cs);
    assert cs[i].name == ChannelName(i + 1);
    assert cs[i].name[0] == 'C' != ProtoKey[0];
    StatusMapLast(cs, i);
  }

  /** Contiguous names are pairwise distinct. */
  lemma ContiguousDistinct(cs: seq<Channel>)
    requires Contiguous(cs)
    ensures DistinctNames(cs)
  {
    forall i, j | 0 <= i < j < |cs|
      ensures cs[i].name != cs[j].name
    {
      LabelInjective("Channel ", i + 1, j + 1);
    }
  }

  /** The last channel carrying a name decides that name's value. */
  lemma {:induction false} StatusMapLast(cs: seq<Channel>, i: nat)
    requires i < |cs|
    requires forall j :: i < j < |cs| ==> cs[j].name != cs[i].name
    ensures cs[i].name in StatusMap(cs) <==> cs[i].name != ProtoKey
    ensures cs[i].name != ProtoKey ==> StatusMap(cs)[cs[i].name] == cs[i].status
    decreases |cs|
  {
    var init := cs[..|cs| - 1];
    if i < |cs| - 1 {
      assert forall j :: 0 <= j < |init| ==> init[j] == cs[j];
      StatusMapLast(init, i);
      assert cs[|cs| - 1].name != cs[i].name;
    }
  }

  lemma StatusMapKeys(cs: seq<Channel>)
    requires Contiguous(cs)
    ensures StatusMap(cs).Keys == Labels("Channel ", |cs|)
  {
    forall n | n in StatusMap(cs)
      ensures n in Labels("Channel ", |cs|)
    {
      KeyIsLabel(cs, n);
    }
    forall n | n in Labels("Channel ", |cs|)
      ensures n in StatusMap(cs)
    {
      LabelIsKey(cs, n);
    }
  }

  lemma KeyIsLabel(cs: seq<Channel>, n: string)
    requires Contiguous(cs) && n in StatusMap(cs)
    ensures n in Labels("Channel ", |cs|)
  {
    var i :| 0 <= i < |cs| && cs[i].name == n;
    LabelsMembers("Channel ", |cs|, n);
  }

  lemma LabelIsKey(cs: seq<Channel>, n: string)
    requires Contiguous(cs) && n in Labels("Channel ", |cs|)
    ensures n in StatusMap(cs)
  {
    LabelsMembers("Channel ", |cs|, n);
    var k :| 1 <= k <= |cs| && n == Label("Channel ", k);
    assert cs[k - 1].name == n;
    assert n[0] == 'C' != ProtoKey[0];
  }
}

=== FILE: decimal.dfy ===
/** Decimal rendering of counters, as JavaScript template literals print a non-negative integer. */
module Decimal {

  function DigitChar(d: nat): (c: char)
    requires d < 10
    ensures '0' <= c <= '9'
  {
    (48 + d) as char
  }

  function DigitValue(c: char): nat
  {
    if '0' <= c <= '9' then c as int - 48 else 0
  }

  /** Shortest base-10 rendering of n: digits only, no leading zero. */
  function NatToString(n: nat): (s: string)
    ensures 1 <= |s|
    ensures forall i :: 0 <= i < |s| ==> '0' <= s[i] <= '9'
    ensures s[0] == '0' ==> n == 0
    decreases n
  {
    if n < 10 then [DigitChar(n)] else NatToString(n / 10) + [DigitChar(n % 10)]
  }

  /** Reads a digit string back as a number. */
  function ParseNat(s: string): nat
    decreases |s|
  {
    if s == [] then 0 else ParseNat(s[..|s| - 1]) * 10 + DigitValue(s[|s| - 1])
  }

  /** Round trip: reading the rendering of n gives back n. */
  lemma {:induction false} ParseNatToString(n: nat)
    ensures ParseNat(NatToString(n)) == n
    decreases n
  {
    var s := NatToString(n);
    if n >= 10 {
      ParseNatToString(n / 10);
      assert s[..|s| - 1] == NatToString(n / 10);
    }
  }

  /** Distinct counters print differently. */
  lemma NatToStringInjective(a: nat, b: nat)
    ensures NatToString(a) == NatToString(b) <==> a == b
  {
    if NatToString(a) == NatToString(b) {
      ParseNatToString(a);
      ParseNatToString(b);
    }
  }
}

=== FILE: devices.dfy ===
/**
 * The device routes of src/routes/objects.js, each a pure transition of the store. The bearer-token
 * middleware in front of some of them is not part of this model; the device-token gate is, and is
 * composed in front of the two routes that use it.
 */
module DeviceRoutes {
  import opened Wrappers
  import opened Seqs
  import opened Schema
  import opened Naming
  import opened Validate
  import opened Channels
  import opened Repository
  import DeviceGate

  /** What initialize answers with. */
  datatype Credentials = Credentials(deviceId: string, token: Option<string>, name: Option<string>)

  /**
   * POST /devices/register. 404 for an unknown user, 400 for a known `deviceId`; otherwise a new
   * active device owned by the user, with the first free default name and the `auth_token` header
   * as token, is appended, and its ObjectId is pushed onto the user's device list. An empty
   * `deviceId` fails the schema's `required` rule at save (500).
   */
  function Register(s: Store, userId: nat, deviceId: string, authToken: Option<string>): (r: Result<Store>)
    ensures r == Err(NotFound) <==> UserIndex(s, userId).None?
    ensures r == Err(BadRequest) <==> UserIndex(s, userId).Some? && DeviceIndex(s, deviceId).Some?
    ensures r == Err(Internal) <==> UserIndex(s, userId).Some? && DeviceIndex(s, deviceId).None? && deviceId == ""
    ensures r.Err? ==> r.failure in {NotFound, BadRequest, Internal}
    ensures r.Ok? ==> |r.value.devices| == |s.devices| + 1
    ensures r.Ok? ==>
              var t := r.value;
              var u := UserIndex(s, userId).value;
              var d := t.devices[|s.devices|];
              && |t.devices| == |s.devices| + 1 && t.devices[..|s.devices|] == s.devices
              && d.key == s.nextId && d.deviceId == deviceId && d.token == authToken
              && d.status == Active && d.user == Some(userId) && d.channels == []
              && d.name == Some(DeviceName(FreeIndex(s.devices)))
              && |t.users| == |s.users|
              && t.users[u] == s.users[u].(devices := s.users[u].devices + [s.nextId])
              && (forall j :: 0 <= j < |s.users| && j != u ==> t.users[j] == s.users[j])
              && t.nextId == s.nextId + 1
  {
    match UserIndex(s, userId)
    case None => Err(NotFound)
    case Some(u) =>
      if DeviceIndex(s, deviceId).Some? then Err(BadRequest)
      else
        var d := NewDevice(s.nextId, deviceId, authToken, Some(userId), Some(FreshDeviceName(s.devices)));
        match Insert(s, d)
        case Err(f) => Err(f)
        case Ok(t) =>
          var user := s.users[u];
          Ok(t.(users := s.users[u := user.(devices := user.devices + [d.key])], nextId := s.nextId + 1))
  }

  /** The devices owned by `userId`, in store order. */
  function OwnedBy(s: Store, userId: nat): (r: seq<Device>)
    ensures forall i :: 0 <= i < |r| ==> r[i] in s.devices && r[i].user == Some(userId)
    ensures forall j :: 0 <= j < |s.devices| && s.devices[j].user == Some(userId) ==> s.devices[j] in r
  {
    Filter(s.devices, (d: Device) => d.user == Some(userId))
  }

  /** GET /devices: 400 without a `userId`, otherwise the user's devices (the user need not exist). */
  function ListDevices(s: Store, userId: Option<nat>): (r: Result<seq<Device>>)
    ensures r.Err? <==> userId.None?
    ensures r.Err? ==> r.failure == BadRequest
    ensures r.Ok? ==> forall d :: d in r.value <==> d in s.devices && d.user == userId
  {
    match userId
    case None => Err(BadRequest)
    case Some(k) => Ok(OwnedBy(s, k))
  }

  /** GET /devices/filter: as ListDevices, but 404 when no user has that id. */
  function FilterDevices(s: Store, userId: Option<nat>): (r: Result<seq<Device>>)
    ensures r == Err(BadRequest) <==> userId.None?
    ensures r == Err(NotFound) <==> userId.Some? && UserIndex(s, userId.value).None?
    ensures r.Err? ==> r.failure in {BadRequest, NotFound}
    ensures r.Ok? ==> forall d :: d in r.value <==> d in s.devices && d.user == userId
  {
    match userId
    case None => Err(BadRequest)
    case Some(k) => if UserIndex(s, k).None? then Err(NotFound) else Ok(OwnedBy(s, k))
  }

  /**
   * PUT /devices/update-name; `deviceKey` is the device's ObjectId. 400 when a parameter is missing
   * or when the device found under the new name is a different one (checked before the target is
   * looked up); 404 when no device has that ObjectId; otherwise only the target's name changes.
   */
  function UpdateName(s: Store, deviceKey: Option<nat>, newName: Option<string>): (r: Result<(Store, Device)>)
    ensures r == Err(BadRequest) <==>
              deviceKey.None? || !PresentString(newName)
              || (DeviceIndexByName(s, newName.value).Some?
                  && Some(s.devices[DeviceIndexByName(s, newName.value).value].key) != deviceKey)
    ensures r == Err(NotFound) <==>
              deviceKey.Some? && PresentString(newName) && DeviceIndexByKey(s, deviceKey.value).None?
              && (DeviceIndexByName(s, newName.value).None?
                  || Some(s.devices[DeviceIndexByName(s, newName.value).value].key) == deviceKey)
    ensures r.Err? ==> r.failure in {BadRequest, NotFound}
    ensures r.Ok? ==>
              var i := DeviceIndexByKey(s, deviceKey.value).value;
              && r.value.0 == Put(s, i, s.devices[i].(name := newName))
              && r.value.1 == r.value.0.devices[i]
  {
    if deviceKey.None? || !PresentString(newName) then Err(BadRequest)
    else
      var holder := DeviceIndexByName(s, newName.value);
      if holder.Some? && Some(s.devices[holder.value].key) != deviceKey then Err(BadRequest)
      else match DeviceIndexByKey(s, deviceKey.value)
        case None => Err(NotFound)
        case Some(i) =>
          var t := Put(s, i, s.devices[i].(name := newName));
          Ok((t, t.devices[i]))
  }

  /**
   * The device-level status change: the new status, and when it is inactive every channel is
   * switched off in the same write.
   */
  function WithStatus(d: Device, st: DeviceStatus): (r: Device)
    ensures r.status == st
    ensures CascadeHolds(r)
    ensures st == Active ==> r.channels == d.channels
    ensures |r.channels| == |d.channels|
    ensures forall i :: 0 <= i < |d.channels| ==>
              r.channels[i] == d.channels[i].(status := r.channels[i].status)
    ensures r.(status := d.status, channels := d.channels) == d
  {
    if st == Inactive then d.(status := st, channels := AllOff(d.channels)) else d.(status := st)
  }

  function Flip(st: DeviceStatus): DeviceStatus
  {
    if st == Active then Inactive else Active
  }

  /** PUT /devices/update-status: 404 for an unknown id; otherwise the status flips, with the cascade. */
  function ToggleStatus(s: Store, deviceId: string): (r: Result<Store>)
    ensures r.Err? <==> DeviceIndex(s, deviceId).None?
    ensures r.Err? ==> r.failure == NotFound
    ensures r.Ok? ==>
              var i := DeviceIndex(s, deviceId).value;
              && r.value == Put(s, i, WithStatus(s.devices[i], Flip(s.devices[i].status)))
              && r.value.devices[i].status != s.devices[i].status
  {
    match DeviceIndex(s, deviceId)
    case None => Err(NotFound)
    case Some(i) => Ok(Put(s, i, WithStatus(s.devices[i], Flip(s.devices[i].status))))
  }

  /** Removes the i-th device. */
  function Drop(ds: seq<Device>, i: nat): (r: seq<Device>)
    requires i < |ds|
    ensures |r| == |ds| - 1
    ensures forall j :: 0 <= j < |r| ==> r[j] == if j < i then ds[j] else ds[j + 1]
  {
    ds[..i] + ds[i + 1..]
  }

  /** Mongo's `$pull`: every occurrence of `key` leaves the list, the rest keep their order. */
  function Pull(ks: seq<nat>, key: nat): (r: seq<nat>)
    ensures key !in r
    ensures forall k :: k in r <==> k in ks && k != key
  {
    Filter(ks, (k: nat) => k != key)
  }

  /** Pulling a key that was just pushed onto a list that did not hold it gives back the list. */
  lemma PullAppended(ks: seq<nat>, key: nat)
    requires key !in ks
    ensures Pull(ks + [key], key) == ks
  {
    var p := (k: nat) => k != key;
    FilterSnoc(ks, key, p);
    FilterAll(ks, p);
  }

  /**
   * DELETE /devices/unregister. 404 for an unknown user or device; a device without an owner makes
   * the ownership test throw (500); 403 when another user owns it. Otherwise the device's ObjectId
   * is pulled from the user's list and the device removed.
   */
  function Unregister(s: Store, deviceId: string, userId: nat): (r: Result<Store>)
    ensures r.Err? <==>
              UserIndex(s, userId).None? || DeviceIndex(s, deviceId).None?
              || s.devices[DeviceIndex(s, deviceId).value].user != Some(userId)
    ensures r == Err(Forbidden) <==>
              UserIndex(s, userId).Some? && DeviceIndex(s, deviceId).Some?
              && var d := s.devices[DeviceIndex(s, deviceId).value]; d.user.Some? && d.user != Some(userId)
    ensures r == Err(Internal) <==>
              UserIndex(s, userId).Some? && DeviceIndex(s, deviceId).Some?
              && s.devices[DeviceIndex(s, deviceId).value].user.None?
    ensures r.Err? ==> r.failure in {NotFound, Forbidden, Internal}
    ensures r.Ok? ==>
              var i := DeviceIndex(s, deviceId).value;
              var u := UserIndex(s, userId).value;
              && r.value.devices == Drop(s.devices, i)
              && |r.value.users| == |s.users|
              && r.value.users[u] == s.users[u].(devices := Pull(s.users[u].devices, s.devices[i].key))
              && (forall j :: 0 <= j < |s.users| && j != u ==> r.value.users[j] == s.users[j])
              && r.value.nextId == s.nextId
  {
    match UserIndex(s, userId)
    case None => Err(NotFound)
    case Some(u) =>
      match DeviceIndex(s, deviceId)
      case None => Err(NotFound)
      case Some(i) =>
        var d := s.devices[i];
        if d.user.None? then Err(Internal)
        else if d.user.value != userId then Err(Forbidden)
        else
          var user := s.users[u];
          var kept := Pull(user.devices, d.key);
          Ok(Store(Drop(s.devices, i), s.users[u := user.(devices := kept)], s.nextId))
  }

  /**
   * POST /devices/channels: 404 for an unknown id; otherwise one channel named after the new length
   * is appended, switched off, under a fresh ObjectId. Nothing checks that the name is unused.
   */
  function AddChannel(s: Store, deviceId: string): (r: Result<Store>)
    ensures r.Err? <==> DeviceIndex(s, deviceId).None?
    ensures r.Err? ==> r.failure == NotFound
    ensures r.Ok? ==>
              var i := DeviceIndex(s, deviceId).value;
              var d := s.devices[i];
              && r.value == Put(s, i, d.(channels := Append(d.channels, s.nextId))).(nextId := s.nextId + 1)
  {
    match DeviceIndex(s, deviceId)
    case None => Err(NotFound)
    case Some(i) =>
      var d := s.devices[i];
      Ok(Put(s, i, d.(channels := Append(d.channels, s.nextId))).(nextId := s.nextId + 1))
  }

  /**
   * DELETE /devices/channels: 404 for an unknown device or channel, 400 for a switched-on channel;
   * otherwise the channel is removed and the rest renumbered.
   */
  function DeleteChannel(s: Store, deviceId: string, channelId: nat): (r: Result<Store>)
    ensures r == Err(NotFound) <==>
              DeviceIndex(s, deviceId).None? || IndexOf(s.devices[DeviceIndex(s, deviceId).value].channels, channelId).None?
    ensures r == Err(BadRequest) <==>
              DeviceIndex(s, deviceId).Some? && Remove(s.devices[DeviceIndex(s, deviceId).value].channels, channelId) == Err(BadRequest)
    ensures r.Err? ==> r.failure in {NotFound, BadRequest}
    ensures r.Ok? ==>
              var i := DeviceIndex(s, deviceId).value;
              var d := s.devices[i];
              && Remove(d.channels, channelId).Ok?
              && r.value == Put(s, i, d.(channels := Remove(d.channels, channelId).value))
              && Contiguous(r.value.devices[i].channels)
  {
    match DeviceIndex(s, deviceId)
    case None => Err(NotFound)
    case Some(i) =>
      var d := s.devices[i];
      match Remove(d.channels, channelId)
      case Err(f) => Err(f)
      case Ok(cs) => Ok(Put(s, i, d.(channels := cs)))
  }

  /**
   * PUT /devices/channels: 404 for an unknown device or channel; otherwise only that channel's
   * status is negated, and the new channel list is answered.
   */
  function ToggleChannel(s: Store, deviceId: string, channelId: nat): (r: Result<(Store, seq<Channel>)>)
    ensures r.Err? <==>
              DeviceIndex(s, deviceId).None? || IndexOf(s.devices[DeviceIndex(s, deviceId).value].channels, channelId).None?
    ensures r.Err? ==> r.failure == NotFound
    ensures r.Ok? ==>
              var i := DeviceIndex(s, deviceId).value;
              var d := s.devices[i];
              && Toggle(d.channels, channelId).Ok?
              && r.value.0 == Put(s, i, d.(channels := Toggle(d.channels, channelId).value))
              && r.value.1 == r.value.0.devices[i].channels
  {
    match DeviceIndex(s, deviceId)
    case None => Err(NotFound)
    case Some(i) =>
      var d := s.devices[i];
      match Toggle(d.channels, channelId)
      case Err(f) => Err(f)
      case Ok(cs) => Ok((Put(s, i, d.(channels := cs)), cs))
  }

  /**
   * PUT /devices/update-channel-name: 400 when a parameter is missing; 404 when no device holds the
   * channel; 400 when a sibling with another ObjectId already has the name; otherwise only that
   * channel's name changes.
   */
  function RenameChannel(s: Store, channelId: Option<nat>, newName: Option<string>): (r: Result<(Store, Device)>)
    ensures channelId.None? || !PresentString(newName) ==> r == Err(BadRequest)
    ensures r == Err(NotFound) <==>
              channelId.Some? && PresentString(newName) && DeviceIndexByChannel(s, channelId.value).None?
    ensures r.Err? ==> r.failure in {BadRequest, NotFound}
    ensures channelId.Some? && PresentString(newName) && DeviceIndexByChannel(s, channelId.value).Some? ==>
              var i := DeviceIndexByChannel(s, channelId.value).value;
              var cs := s.devices[i].channels;
              && (r == Err(BadRequest) <==> Rename(cs, channelId.value, newName.value) == Err(BadRequest))
              && (r.Ok? ==> r.value.0 == Put(s, i, s.devices[i].(channels := Rename(cs, channelId.value, newName.value).value)))
    ensures r.Ok? ==> r.value.1 == r.value.0.devices[DeviceIndexByChannel(s, channelId.value).value]
  {
    if channelId.None? || !PresentString(newName) then Err(BadRequest)
    else match DeviceIndexByChannel(s, channelId.value)
      case None => Err(NotFound)
      case Some(i) =>
        var d := s.devices[i];
        match Rename(d.channels, channelId.value, newName.value)
        case Err(f) => Err(f)
        case Ok(cs) =>
          var t := Put(s, i, d.(channels := cs));
          Ok((t, t.devices[i]))
  }

  /** GET /devices/check-activation: whether some device with that id is active. */
  function CheckActivation(s: Store, deviceId: string): (activated: bool)
    ensures activated <==>
              exists i :: 0 <= i < |s.devices| && s.devices[i].deviceId == deviceId && s.devices[i].status == Active
  {
    Find(s.devices, (d: Device) => d.deviceId == deviceId && d.status == Active).Some?
  }

  /**
   * POST /devices/initialize, get-or-create. A known id answers with the stored credentials and
   * writes nothing. A new id gets the minted `token` and the first free default name; the record is
   * validated (400 when rejected) and the device, active and unowned, appended.
   */
  function Initialize(s: Store, deviceId: string, token: string): (r: Result<(Store, Credentials)>)
    ensures DeviceIndex(s, deviceId).Some? ==>
              var d := s.devices[DeviceIndex(s, deviceId).value];
              r == Ok((s, Credentials(d.deviceId, d.token, d.name)))
    ensures DeviceIndex(s, deviceId).None? ==>
              var name := DeviceName(FreeIndex(s.devices));
              var record := Record(Some(deviceId), Some(name), Some(token));
              && (r.Ok? <==> ValidateDevice(record) == Accepted)
              && (r.Err? ==> r.failure == BadRequest)
              && (r.Ok? ==>
                    && r.value.0 == Store(s.devices + [NewDevice(s.nextId, deviceId, Some(token), None, Some(name))],
                                          s.users, s.nextId + 1)
                    && r.value.1 == Credentials(deviceId, Some(token), Some(name)))
  {
    match DeviceIndex(s, deviceId)
    case Some(i) =>
      var d := s.devices[i];
      Ok((s, Credentials(d.deviceId, d.token, d.name)))
    case None =>
      var name := FreshDeviceName(s.devices);
      if ValidateDevice(Record(Some(deviceId), Some(name), Some(token))) != Accepted then Err(BadRequest)
      else
        UuidV4Characterized(deviceId);
        var d := NewDevice(s.nextId, deviceId, Some(token), None, Some(name));
        match Insert(s, d)
        case Err(f) => Err(f)
        case Ok(t) =>
          var t' := t.(nextId := s.nextId + 1);
          assert t'.devices[|s.devices|].deviceId == deviceId;
          var saved := t'.devices[DeviceIndex(t', deviceId).value];
          Ok((t', Credentials(saved.deviceId, saved.token, saved.name)))
  }

  /**
   * The handler of PUT /devices/:deviceId/status. 404 for an unknown id; a body status outside the
   * enum fails validation at save (500); otherwise the status is set, with the cascade when it is
   * "inactive".
   */
  function SetStatus(s: Store, deviceId: string, status: string): (r: Result<Store>)
    ensures r == Err(NotFound) <==> DeviceIndex(s, deviceId).None?
    ensures r == Err(Internal) <==> DeviceIndex(s, deviceId).Some? && ParseStatus(status).None?
    ensures r.Err? ==> r.failure in {NotFound, Internal}
    ensures r.Ok? ==>
              var i := DeviceIndex(s, deviceId).value;
              && ParseStatus(status).Some?
              && r.value == Put(s, i, WithStatus(s.devices[i], ParseStatus(status).value))
  {
    match DeviceIndex(s, deviceId)
    case None => Err(NotFound)
    case Some(i) =>
      match ParseStatus(status)
      case None => Err(Internal)
      case Some(st) => Ok(Put(s, i, WithStatus(s.devices[i], st)))
  }

  /** PUT /devices/:deviceId/status with its gate: a denial answers before anything is read or written. */
  function SetStatusRoute(s: Store, deviceId: string, header: Option<string>, status: string): (r: Result<Store>)
    ensures DeviceGate.Check(s, deviceId, header).Deny? ==> r == Err(DeviceGate.Check(s, deviceId, header).failure)
    ensures DeviceGate.Check(s, deviceId, header) == DeviceGate.Allow ==> r == SetStatus(s, deviceId, status)
  {
    match DeviceGate.Check(s, deviceId, header)
    case Deny(f) => Err(f)
    case Allow => SetStatus(s, deviceId, status)
  }

  /** GET /devices/:deviceId/channels behind the gate: the `{name: status}` object of the device. */
  function ChannelsRoute(s: Store, deviceId: string, header: Option<string>): (r: Result<map<string, bool>>)
    ensures DeviceGate.Check(s, deviceId, header).Deny? ==> r == Err(DeviceGate.Check(s, deviceId, header).failure)
    ensures DeviceGate.Check(s, deviceId, header) == DeviceGate.Allow ==>
              r == Ok(StatusMap(s.devices[DeviceIndex(s, deviceId).value].channels))
  {
    match DeviceGate.Check(s, deviceId, header)
    case Deny(f) => Err(f)
    case Allow =>
      match DeviceIndex(s, deviceId)
      case None => Err(NotFound)
      case Some(i) => Ok(StatusMap(s.devices[i].channels))
  }

  /**
   * POST /devices/:deviceId/assign-user: 404 for an unknown device or user; otherwise the device's
   * owner becomes the user. The user's own device list is not touched, and a previous owner is
   * replaced without being asked.
   */
  function AssignUser(s: Store, deviceId: string, userId: nat): (r: Result<Store>)
    ensures r.Err? <==> DeviceIndex(s, deviceId).None? || UserIndex(s, userId).None?
    ensures r.Err? ==> r.failure == NotFound
    ensures r.Ok? ==>
              var i := DeviceIndex(s, deviceId).value;
              && r.value == Put(s, i, s.devices[i].(user := Some(userId)))
  {
    match DeviceIndex(s, deviceId)
    case None => Err(NotFound)
    case Some(i) =>
      if UserIndex(s, userId).None? then Err(NotFound)
      else Ok(Put(s, i, s.devices[i].(user := Some(userId))))
  }
}

=== FILE: gate.dfy ===
/**
 * The device-token gate of app/verify-device.js: the path's `deviceId` must name a device, and that
 * device's stored token must equal the `authorization` header exactly. It only reads the store.
 */
module DeviceGate {
  import opened Wrappers
  import opened Schema
  import opened Repository

  datatype Verdict = Allow | Deny(failure: Failure)

  /** `header` is None when the request carries no `authorization` header. */
  function Check(s: Store, deviceId: string, header: Option<string>): (v: Verdict)
    ensures v == Deny(NotFound) <==> forall j :: 0 <= j < |s.devices| ==> s.devices[j].deviceId != deviceId
    ensures v == Deny(Unauthorized) <==>
              DeviceIndex(s, deviceId).Some? && s.devices[DeviceIndex(s, deviceId).value].token != header
    ensures v == Allow <==>
              DeviceIndex(s, deviceId).Some? && s.devices[DeviceIndex(s, deviceId).value].token == header
  {
    match DeviceIndex(s, deviceId)
    case None => Deny(NotFound)
    case Some(i) => if s.devices[i].token != header then Deny(Unauthorized) else Allow
  }

  /** With unique ids the gate allows exactly when some device has that id and the header as token. */
  lemma AllowIff(s: Store, deviceId: string, header: Option<string>)
    requires UniqueDeviceIds(s.devices)
    ensures Check(s, deviceId, header) == Allow <==>
              exists i :: 0 <= i < |s.devices| && s.devices[i].deviceId == deviceId && s.devices[i].token == header
  {
    if exists i :: 0 <= i < |s.devices| && s.devices[i].deviceId == deviceId && s.devices[i].token == header {
      var i :| 0 <= i < |s.devices| && s.devices[i].deviceId == deviceId && s.devices[i].token == header;
      assert DeviceIndex(s, deviceId) == Some(i);
    }
  }

  /**
   * Plain equality also holds between two absent values: a device stored without a token is let
   * through by a request that sends no `authorization` header.
   */
  lemma OpenWithoutToken(s: Store, i: nat)
    requires UniqueDeviceIds(s.devices)
    requires i < |s.devices| && s.devices[i].token.None?
    ensures Check(s, s.devices[i].deviceId, None) == Allow
  {
    AllowIff(s, s.devices[i].deviceId, None);
  }
}

=== FILE: invariants.dfy ===
/**
 * The store invariants across every route: which operations keep them, and the sequences of
 * requests after which the channel invariants I3 and I4 no longer hold.
 */
module Invariants {
  import opened Wrappers
  import opened Seqs
  import opened Schema
  import opened Naming
  import opened Validate
  import opened Channels
  import opened Repository
  import DeviceRoutes
  import UserRoutes

  /** One request to any modelled route, with its parameters. */
  datatype Request =
    | RegisterDevice(userId: nat, deviceId: string, authToken: Option<string>)
    | UpdateName(deviceKey: Option<nat>, newName: Option<string>)
    | ToggleStatus(deviceId: string)
    | Unregister(deviceId: string, userId: nat)
    | AddChannel(deviceId: string)
    | DeleteChannel(deviceId: string, channelId: nat)
    | ToggleChannel(deviceId: string, channelId: nat)
    | RenameChannel(channelKey: Option<nat>, newName: Option<string>)
    | Initialize(deviceId: string, token: string)
    | SetStatus(deviceId: string, header: Option<string>, status: string)
    | AssignUser(deviceId: string, userId: nat)
    | Login(who: string, password: string, compare: (string, string) -> bool, token: string)
    | SignUp(username: string, email: string, password: string)

  /** The store part of a handler's result. */
  function Written<T>(r: Result<(Store, T)>): Result<Store>
  {
    match r
    case Ok(p) => Ok(p.0)
    case Err(f) => Err(f)
  }

  /** The store after a request; an error response writes nothing. */
  function Step(s: Store, req: Request): Result<Store>
  {
    match req
    case RegisterDevice(u, id, t) => DeviceRoutes.Register(s, u, id, t)
    case UpdateName(k, n) => Written(DeviceRoutes.UpdateName(s, k, n))
    case ToggleStatus(id) => DeviceRoutes.ToggleStatus(s, id)
    case Unregister(id, u) => DeviceRoutes.Unregister(s, id, u)
    case AddChannel(id) => DeviceRoutes.AddChannel(s, id)
    case DeleteChannel(id, c) => DeviceRoutes.DeleteChannel(s, id, c)
    case ToggleChannel(id, c) => Written(DeviceRoutes.ToggleChannel(s, id, c))
    case RenameChannel(c, n) => Written(DeviceRoutes.RenameChannel(s, c, n))
    case Initialize(id, t) => Written(DeviceRoutes.Initialize(s, id, t))
    case SetStatus(id, h, st) => DeviceRoutes.SetStatusRoute(s, id, h, st)
    case AssignUser(id, u) => DeviceRoutes.AssignUser(s, id, u)
    case Login(w, p, cmp, t) => Written(UserRoutes.Login(s, w, p, cmp, t))
    case SignUp(u, e, p) => UserRoutes.SignUp(s, u, e, p)
  }

  /**
   * Only the account sign-up answers 409, and it answers nothing else; a taken device name or
   * channel name answers 400.
   */
  lemma OnlySignUpConflicts(s: Store, req: Request)
    ensures Step(s, req).Err? && Step(s, req).failure.Code() == 409 ==> req.SignUp?
    ensures req.SignUp? && Step(s, req).Err? ==> Step(s, req).failure.Code() == 409
  {
  }

  /** I4 over the store: every inactive device has all its channels off. */
  predicate AllCascade(s: Store)
  {
    forall i :: 0 <= i < |s.devices| ==> CascadeHolds(s.devices[i])
  }

  /** I3 over the store: every device's channels are named "Channel 1" .. "Channel k". */
  predicate AllContiguous(s: Store)
  {
    forall i :: 0 <= i < |s.devices| ==> Contiguous(s.devices[i].channels)
  }

  // ---------------------------------------------------------------------------------------------
  // Valid: I1, unique names and keys, fresh ObjectIds, conforming documents.

  /** Writing back a device that keeps its identity, name and a well-formed channel list keeps Valid. */
  lemma PutKeepsValid(s: Store, i: nat, d: Device, n: nat)
    requires Valid(s) && i < |s.devices| && s.nextId <= n
    requires d.key == s.devices[i].key && d.deviceId == s.devices[i].deviceId && d.name == s.devices[i].name
    requires Conforms(d) && DistinctIds(d.channels)
    requires forall c :: c in d.channels ==> c.id < n
    ensures Valid(Put(s, i, d).(nextId := n))
  {
    var t := Put(s, i, d).(nextId := n);
    assert forall j :: 0 <= j < |t.devices| ==>
      t.devices[j].key == s.devices[j].key && t.devices[j].deviceId == s.devices[j].deviceId
      && t.devices[j].name == s.devices[j].name;
    forall j, c | 0 <= j < |t.devices| && c in t.devices[j].channels
      ensures c.id < n
    {
      if j != i {
        assert c in s.devices[j].channels;
      }
    }
  }

  lemma RegisterKeepsValid(s: Store, userId: nat, deviceId: string, authToken: Option<string>)
    requires Valid(s)
    requires DeviceRoutes.Register(s, userId, deviceId, authToken).Ok?
    ensures Valid(DeviceRoutes.Register(s, userId, deviceId, authToken).value)
  {
    var t := DeviceRoutes.Register(s, userId, deviceId, authToken).value;
    var u := UserIndex(s, userId).value;
    assert t.users[u].key == s.users[u].key;
    forall j, k | 0 <= j < |s.users| && k in t.users[j].devices
      ensures k in s.users[j].devices || k == s.nextId
    {
      if j == u {
        assert t.users[u].devices == s.users[u].devices + [s.nextId];
      }
    }
    AppendDeviceKeepsValid(s, t);
  }

  lemma InitializeKeepsValid(s: Store, deviceId: string, token: string)
    requires Valid(s)
    requires DeviceRoutes.Initialize(s, deviceId, token).Ok?
    ensures Valid(DeviceRoutes.Initialize(s, deviceId, token).value.0)
  {
    if DeviceIndex(s, deviceId).None? {
      AppendDeviceKeepsValid(s, DeviceRoutes.Initialize(s, deviceId, token).value.0);
    }
  }

  /**
   * Appending a device with an unused `deviceId`, the first free default name, the next ObjectId
   * and no channels, and advancing the allocator, keeps Valid (whatever happens to user device lists).
   */
  lemma AppendDeviceKeepsValid(s: Store, t: Store)
    requires Valid(s)
    requires |t.devices| == |s.devices| + 1 && t.devices[..|s.devices|] == s.devices
    requires |t.users| == |s.users| && forall j :: 0 <= j < |s.users| ==> t.users[j].key == s.users[j].key
    requires forall j, k :: 0 <= j < |s.users| && k in t.users[j].devices ==> k in s.users[j].devices || k == s.nextId
    requires t.nextId == s.nextId + 1
    requires var d := t.devices[|s.devices|];
      && d.key == s.nextId && d.channels == [] && d.deviceId != ""
      && DeviceIndex(s, d.deviceId).None?
      && d.name == Some(DeviceName(FreeIndex(s.devices)))
    ensures Valid(t)
  {
    AppendedDeviceFits(s, t);
    forall j, k | 0 <= j < |t.users| && k in t.users[j].devices
      ensures k < t.nextId
    {
    }
  }

  /** The device half of AppendDeviceKeepsValid. */
  lemma AppendedDeviceFits(s: Store, t: Store)
    requires Valid(s)
    requires |t.devices| == |s.devices| + 1 && t.devices[..|s.devices|] == s.devices
    requires t.nextId == s.nextId + 1
    requires var d := t.devices[|s.devices|];
      && d.key == s.nextId && d.channels == [] && d.deviceId != ""
      && DeviceIndex(s, d.deviceId).None?
      && d.name == Some(DeviceName(FreeIndex(s.devices)))
    ensures UniqueDeviceIds(t.devices) && UniqueDeviceNames(t.devices) && UniqueKeys(t.devices)
    ensures forall j :: 0 <= j < |t.devices| ==> Conforms(t.devices[j]) && DistinctIds(t.devices[j].channels)
    ensures forall j :: 0 <= j < |t.devices| ==> t.devices[j].key < t.nextId
    ensures forall j, c :: 0 <= j < |t.devices| && c in t.devices[j].channels ==> c.id < t.nextId
  {
    var n := |s.devices|;
    assert forall j :: 0 <= j < n ==> t.devices[j] == s.devices[j];
    var d := t.devices[n];
    assert !NameTaken(s.devices, d.name.value);
    forall j, c | 0 <= j < |t.devices| && c in t.devices[j].channels
      ensures c.id < t.nextId
    {
      assert j < n;
    }
  }

  lemma UpdateNameKeepsValid(s: Store, deviceKey: Option<nat>, newName: Option<string>)
    requires Valid(s)
    requires DeviceRoutes.UpdateName(s, deviceKey, newName).Ok?
    ensures Valid(DeviceRoutes.UpdateName(s, deviceKey, newName).value.0)
  {
    var i := DeviceIndexByKey(s, deviceKey.value).value;
    var h := DeviceIndexByName(s, newName.value);
    if h.Some? {
      assert s.devices[h.value].key == s.devices[i].key;
      assert h.value == i;
    }
    NameUnusedKeepsValid(s, i, newName.value);
  }

  /** Giving device i a name no other device holds keeps Valid. */
  lemma NameUnusedKeepsValid(s: Store, i: nat, name: string)
    requires Valid(s) && i < |s.devices|
    requires forall j :: 0 <= j < |s.devices| && j != i ==> s.devices[j].name != Some(name)
    ensures Valid(Put(s, i, s.devices[i].(name := Some(name))))
  {
    var t := Put(s, i, s.devices[i].(name := Some(name)));
    assert forall j :: 0 <= j < |t.devices| ==>
      t.devices[j].key == s.devices[j].key && t.devices[j].deviceId == s.devices[j].deviceId
      && t.devices[j].channels == s.devices[j].channels;
    forall a, b | 0 <= a < b < |t.devices| && t.devices[a].name.Some?
      ensures t.devices[a].name != t.devices[b].name
    {
    }
  }

  lemma UnregisterKeepsValid(s: Store, deviceId: string, userId: nat)
    requires Valid(s)
    requires DeviceRoutes.Unregister(s, deviceId, userId).Ok?
    ensures Valid(DeviceRoutes.Unregister(s, deviceId, userId).value)
  {
    var t := DeviceRoutes.Unregister(s, deviceId, userId).value;
    var i := DeviceIndex(s, deviceId).value;
    DropKeepsDevices(s, i, t);
    forall j, k | 0 <= j < |t.users| && k in t.users[j].devices
      ensures k < t.nextId
    {
      assert k in s.users[j].devices;
    }
    assert forall j :: 0 <= j < |t.users| ==> t.users[j].key == s.users[j].key;
  }

  /** Removing one device keeps every device-side part of Valid. */
  lemma DropKeepsDevices(s: Store, i: nat, t: Store)
    requires Valid(s) && i < |s.devices|
    requires t.devices == DeviceRoutes.Drop(s.devices, i) && t.nextId == s.nextId
    ensures UniqueDeviceIds(t.devices) && UniqueDeviceNames(t.devices) && UniqueKeys(t.devices)
    ensures forall j :: 0 <= j < |t.devices| ==> Conforms(t.devices[j]) && DistinctIds(t.devices[j].channels)
    ensures forall j :: 0 <= j < |t.devices| ==> t.devices[j].key < t.nextId
    ensures forall j, c :: 0 <= j < |t.devices| && c in t.devices[j].channels ==> c.id < t.nextId
  {
    forall j, c | 0 <= j < |t.devices| && c in t.devices[j].channels
      ensures c.id < t.nextId
    {
      if j < i {
        assert c in s.devices[j].channels;
      } else {
        assert c in s.devices[j + 1].channels;
      }
    }
  }

  lemma AddChannelKeepsValid(s: Store, deviceId: string)
    requires Valid(s)
    requires DeviceRoutes.AddChannel(s, deviceId).Ok?
    ensures Valid(DeviceRoutes.AddChannel(s, deviceId).value)
  {
    var i := DeviceIndex(s, deviceId).value;
    var d := s.devices[i];
    var cs := Append(d.channels, s.nextId);
    forall a, b | 0 <= a < b < |cs|
      ensures cs[a].id != cs[b].id
    {
      assert cs[a] == d.channels[a];
      if b < |d.channels| {
        assert cs[b] == d.channels[b];
      } else {
        assert d.channels[a] in d.channels;
      }
    }
    forall c | c in cs
      ensures c.id < s.nextId + 1
    {
      var k :| 0 <= k < |cs| && cs[k] == c;
      if k < |d.channels| {
        assert cs[k] == d.channels[k];
        assert d.channels[k] in d.channels;
      }
    }
    forall k | 0 <= k < |cs|
      ensures cs[k].name != ""
    {
      if k < |d.channels| {
        assert cs[k] == d.channels[k];
      } else {
        assert cs[k].name[0] == 'C';
      }
    }
    PutKeepsValid(s, i, d.(channels := cs), s.nextId + 1);
  }

  lemma DeleteChannelKeepsValid(s: Store, deviceId: string, channelId: nat)
    requires Valid(s)
    requires DeviceRoutes.DeleteChannel(s, deviceId, channelId).Ok?
    ensures Valid(DeviceRoutes.DeleteChannel(s, deviceId, channelId).value)
  {
    var i := DeviceIndex(s, deviceId).value;
    var d := s.devices[i];
    var k := IndexOf(d.channels, channelId).value;
    RemoveWellFormed(d.channels, k, s.nextId);
    PutKeepsValid(s, i, d.(channels := Remove(d.channels, channelId).value), s.nextId);
  }

  /** Deleting from a well-formed channel list leaves a well-formed one. */
  lemma RemoveWellFormed(cs: seq<Channel>, k: nat, n: nat)
    requires DistinctIds(cs) && k < |cs| && !cs[k].status
    requires forall c :: c in cs ==> c.id < n
    ensures Remove(cs, cs[k].id).Ok?
    ensures var r := Remove(cs, cs[k].id).value;
      && DistinctIds(r)
      && (forall c :: c in r ==> c.id < n)
      && (forall j :: 0 <= j < |r| ==> r[j].name != "")
  {
    RemoveDropsTarget(cs, k);
    var kept := cs[..k] + cs[k + 1..];
    KeptWellFormed(cs, k, n);
    RenumberWellFormed(kept, n);
  }

  lemma KeptWellFormed(cs: seq<Channel>, k: nat, n: nat)
    requires DistinctIds(cs) && k < |cs|
    requires forall c :: c in cs ==> c.id < n
    ensures DistinctIds(cs[..k] + cs[k + 1..])
    ensures forall c :: c in cs[..k] + cs[k + 1..] ==> c.id < n
  {
    var kept := cs[..k] + cs[k + 1..];
    assert forall j :: 0 <= j < |kept| ==> kept[j] == if j < k then cs[j] else cs[j + 1];
    forall c | c in kept
      ensures c.id < n
    {
      var j :| 0 <= j < |kept| && kept[j] == c;
      assert (if j < k then cs[j] else cs[j + 1]) in cs;
    }
  }

  lemma RenumberWellFormed(cs: seq<Channel>, n: nat)
    requires DistinctIds(cs)
    requires forall c :: c in cs ==> c.id < n
    ensures var r := Renumber(cs);
      && DistinctIds(r)
      && (forall c :: c in r ==> c.id < n)
      && (forall j :: 0 <= j < |r| ==> r[j].name != "")
  {
    var r := Renumber(cs);
    forall c | c in r
      ensures c.id < n
    {
      var j :| 0 <= j < |r| && r[j] == c;
      assert cs[j] in cs;
    }
    forall j | 0 <= j < |r|
      ensures r[j].name != ""
    {
      assert r[j].name[0] == 'C';
    }
  }

  lemma ToggleChannelKeepsValid(s: Store, deviceId: string, channelId: nat)
    requires Valid(s)
    requires DeviceRoutes.ToggleChannel(s, deviceId, channelId).Ok?
    ensures Valid(DeviceRoutes.ToggleChannel(s, deviceId, channelId).value.0)
  {
    var i := DeviceIndex(s, deviceId).value;
    var d := s.devices[i];
    var cs := Toggle(d.channels, channelId).value;
    assert forall j :: 0 <= j < |cs| ==> cs[j].id == d.channels[j].id && cs[j].name == d.channels[j].name;
    SameIdsWellFormed(d, cs, s.nextId);
    PutKeepsValid(s, i, d.(channels := cs), s.nextId);
  }

  lemma RenameChannelKeepsValid(s: Store, channelId: Option<nat>, newName: Option<string>)
    requires Valid(s)
    requires DeviceRoutes.RenameChannel(s, channelId, newName).Ok?
    ensures Valid(DeviceRoutes.RenameChannel(s, channelId, newName).value.0)
  {
    var i := DeviceIndexByChannel(s, channelId.value).value;
    var d := s.devices[i];
    var cs := Rename(d.channels, channelId.value, newName.value).value;
    assert forall j :: 0 <= j < |cs| ==> cs[j].id == d.channels[j].id && cs[j].name != "";
    SameIdsWellFormed(d, cs, s.nextId);
    PutKeepsValid(s, i, d.(channels := cs), s.nextId);
  }

  /** A channel list with the same ObjectIds, position by position, and non-empty names. */
  lemma SameIdsWellFormed(d: Device, cs: seq<Channel>, n: nat)
    requires Conforms(d) && DistinctIds(d.channels)
    requires forall c :: c in d.channels ==> c.id < n
    requires |cs| == |d.channels|
    requires forall j :: 0 <= j < |cs| ==> cs[j].id == d.channels[j].id && cs[j].name != ""
    ensures Conforms(d.(channels := cs)) && DistinctIds(cs)
    ensures forall c :: c in cs ==> c.id < n
  {
    forall c | c in cs
      ensures c.id < n
    {
      var j :| 0 <= j < |cs| && cs[j] == c;
      assert d.channels[j] in d.channels;
    }
  }

  /** A device-level change of status and channel statuses only. */
  lemma StatusChangeKeepsValid(s: Store, i: nat, st: DeviceStatus)
    requires Valid(s) && i < |s.devices|
    ensures Valid(Put(s, i, DeviceRoutes.WithStatus(s.devices[i], st)).(nextId := s.nextId))
  {
    var d := s.devices[i];
    var d' := DeviceRoutes.WithStatus(d, st);
    assert forall j :: 0 <= j < |d'.channels| ==> d'.channels[j].id == d.channels[j].id && d'.channels[j].name == d.channels[j].name;
    forall c | c in d'.channels
      ensures c.id < s.nextId
    {
      var j :| 0 <= j < |d'.channels| && d'.channels[j] == c;
      assert d.channels[j] in d.channels;
    }
    PutKeepsValid(s, i, d', s.nextId);
  }

  lemma LoginKeepsValid(s: Store, who: string, password: string, compare: (string, string) -> bool, token: string)
    requires Valid(s)
    requires UserRoutes.Login(s, who, password, compare, token).Ok?
    ensures Valid(UserRoutes.Login(s, who, password, compare, token).value.0)
  {
    var t := UserRoutes.Login(s, who, password, compare, token).value.0;
    assert forall j :: 0 <= j < |t.devices| ==>
      t.devices[j].key == s.devices[j].key && t.devices[j].deviceId == s.devices[j].deviceId
      && t.devices[j].name == s.devices[j].name && t.devices[j].channels == s.devices[j].channels;
  }

  /** Every route keeps the store valid; in particular `deviceId` stays unique (I1). */
  lemma StepPreservesValid(s: Store, req: Request)
    requires Valid(s)
    ensures Step(s, req).Ok? ==> Valid(Step(s, req).value)
  {
    if req.RegisterDevice? || req.Initialize? || req.Unregister? || req.UpdateName? || req.AssignUser? {
      DeviceStepKeepsValid(s, req);
    } else if req.AddChannel? || req.DeleteChannel? || req.ToggleChannel? || req.RenameChannel? {
      ChannelStepKeepsValid(s, req);
    } else {
      OtherStepKeepsValid(s, req);
    }
  }

  lemma DeviceStepKeepsValid(s: Store, req: Request)
    requires Valid(s)
    requires req.RegisterDevice? || req.Initialize? || req.Unregister? || req.UpdateName? || req.AssignUser?
    ensures Step(s, req).Ok? ==> Valid(Step(s, req).value)
  {
    if Step(s, req).Ok? {
      if req.RegisterDevice? {
        RegisterKeepsValid(s, req.userId, req.deviceId, req.authToken);
      } else if req.Initialize? {
        InitializeKeepsValid(s, req.deviceId, req.token);
      } else if req.Unregister? {
        UnregisterKeepsValid(s, req.deviceId, req.userId);
      } else if req.UpdateName? {
        UpdateNameKeepsValid(s, req.deviceKey, req.newName);
      } else {
        var i := DeviceIndex(s, req.deviceId).value;
        PutKeepsValid(s, i, s.devices[i].(user := Some(req.userId)), s.nextId);
      }
    }
  }

  lemma ChannelStepKeepsValid(s: Store, req: Request)
    requires Valid(s)
    requires req.AddChannel? || req.DeleteChannel? || req.ToggleChannel? || req.RenameChannel?
    ensures Step(s, req).Ok? ==> Valid(Step(s, req).value)
  {
    if Step(s, req).Ok? {
      if req.AddChannel? {
        AddChannelKeepsValid(s, req.deviceId);
      } else if req.DeleteChannel? {
        DeleteChannelKeepsValid(s, req.deviceId, req.channelId);
      } else if req.ToggleChannel? {
        ToggleChannelKeepsValid(s, req.deviceId, req.channelId);
      } else {
        RenameChannelKeepsValid(s, req.channelKey, req.newName);
      }
    }
  }

  lemma OtherStepKeepsValid(s: Store, req: Request)
    requires Valid(s)
    requires req.ToggleStatus? || req.SetStatus? || req.Login? || req.SignUp?
    ensures Step(s, req).Ok? ==> Valid(Step(s, req).value)
  {
    if Step(s, req).Ok? {
      if req.ToggleStatus? {
        var i := DeviceIndex(s, req.deviceId).value;
        StatusChangeKeepsValid(s, i, DeviceRoutes.Flip(s.devices[i].status));
      } else if req.SetStatus? {
        var i := DeviceIndex(s, req.deviceId).value;
        StatusChangeKeepsValid(s, i, ParseStatus(req.status).value);
      } else if req.Login? {
        LoginKeepsValid(s, req.who, req.password, req.compare, req.token);
      } else {
        SignUpKeepsValid(s, req.username, req.email, req.password);
      }
    }
  }

  lemma SignUpKeepsValid(s: Store, username: string, email: string, password: string)
    requires Valid(s)
    requires UserRoutes.SignUp(s, username, email, password).Ok?
    ensures Valid(UserRoutes.SignUp(s, username, email, password).value)
  {
    var t := UserRoutes.SignUp(s, username, email, password).value;
    assert forall j :: 0 <= j < |s.users| ==> t.users[j] == s.users[j];
  }

  // ---------------------------------------------------------------------------------------------
  // I4 (cascade) and I3 (contiguous channel names).

  /** Writing back a device that satisfies the cascade keeps it for the store. */
  lemma PutKeepsCascade(s: Store, i: nat, d: Device, n: nat)
    requires i < |s.devices|
    requires AllCascade(s) ==> CascadeHolds(d)
    ensures AllCascade(s) ==> AllCascade(Put(s, i, d).(nextId := n))
  {
  }

  /** Writing back a device with contiguous channel names keeps I3 for the store. */
  lemma PutKeepsContiguous(s: Store, i: nat, d: Device, n: nat)
    requires i < |s.devices|
    requires AllContiguous(s) ==> Contiguous(d.channels)
    ensures AllContiguous(s) ==> AllContiguous(Put(s, i, d).(nextId := n))
  {
  }

  /** Both channel invariants at once. */
  lemma PutKeepsChannelInvariants(s: Store, i: nat, d: Device, n: nat)
    requires i < |s.devices|
    requires AllCascade(s) ==> CascadeHolds(d)
    requires AllContiguous(s) ==> Contiguous(d.channels)
    ensures AllCascade(s) ==> AllCascade(Put(s, i, d).(nextId := n))
    ensures AllContiguous(s) ==> AllContiguous(Put(s, i, d).(nextId := n))
  {
    PutKeepsCascade(s, i, d, n);
    PutKeepsContiguous(s, i, d, n);
  }

  /** A device whose status and channel list are untouched. */
  lemma PutSameChannels(s: Store, i: nat, d: Device, n: nat)
    requires i < |s.devices|
    requires d.status == s.devices[i].status && d.channels == s.devices[i].channels
    ensures AllCascade(s) ==> AllCascade(Put(s, i, d).(nextId := n))
    ensures AllContiguous(s) ==> AllContiguous(Put(s, i, d).(nextId := n))
  {
    PutKeepsChannelInvariants(s, i, d, n);
  }

  /** Appending a device without channels. */
  lemma AppendKeepsChannelInvariants(s: Store, t: Store)
    requires |t.devices| == |s.devices| + 1 && t.devices[..|s.devices|] == s.devices
    requires t.devices[|s.devices|].channels == []
    ensures AllCascade(s) ==> AllCascade(t)
    ensures AllContiguous(s) ==> AllContiguous(t)
  {
    assert forall j :: 0 <= j < |s.devices| ==> t.devices[j] == s.devices[j];
  }

  /** Removing one device. */
  lemma DropKeepsChannelInvariants(s: Store, i: nat, t: Store)
    requires i < |s.devices| && t.devices == DeviceRoutes.Drop(s.devices, i)
    ensures AllCascade(s) ==> AllCascade(t)
    ensures AllContiguous(s) ==> AllContiguous(t)
  {
    assert forall j :: 0 <= j < |t.devices| ==> t.devices[j] in s.devices;
  }

  lemma AddChannelKeepsChannelInvariants(s: Store, deviceId: string)
    requires DeviceRoutes.AddChannel(s, deviceId).Ok?
    ensures AllCascade(s) ==> AllCascade(DeviceRoutes.AddChannel(s, deviceId).value)
    ensures AllContiguous(s) ==> AllContiguous(DeviceRoutes.AddChannel(s, deviceId).value)
  {
    var i := DeviceIndex(s, deviceId).value;
    var d := s.devices[i];
    var cs := Append(d.channels, s.nextId);
    if AllCascade(s) && d.status == Inactive {
      forall j | 0 <= j < |cs|
        ensures !cs[j].status
      {
        if j < |d.channels| {
          assert cs[j] == d.channels[j];
        }
      }
    }
    if AllContiguous(s) {
      AppendKeepsContiguous(d.channels, s.nextId);
    }
    PutKeepsChannelInvariants(s, i, d.(channels := cs), s.nextId + 1);
  }

  lemma DeleteChannelKeepsChannelInvariants(s: Store, deviceId: string, channelId: nat)
    requires Valid(s)
    requires DeviceRoutes.DeleteChannel(s, deviceId, channelId).Ok?
    ensures AllCascade(s) ==> AllCascade(DeviceRoutes.DeleteChannel(s, deviceId, channelId).value)
    ensures AllContiguous(s) ==> AllContiguous(DeviceRoutes.DeleteChannel(s, deviceId, channelId).value)
  {
    var i := DeviceIndex(s, deviceId).value;
    var d := s.devices[i];
    var k := IndexOf(d.channels, channelId).value;
    RemoveExactlyOne(d.channels, k);
    var cs := Remove(d.channels, channelId).value;
    if AllCascade(s) && d.status == Inactive {
      forall j | 0 <= j < |cs|
        ensures !cs[j].status
      {
        assert cs[j].status == (if j < k then d.channels[j] else d.channels[j + 1]).status;
      }
    }
    PutKeepsChannelInvariants(s, i, d.(channels := cs), s.nextId);
  }

  lemma StatusChangeKeepsChannelInvariants(s: Store, i: nat, st: DeviceStatus)
    requires i < |s.devices|
    ensures AllCascade(s) ==> AllCascade(Put(s, i, DeviceRoutes.WithStatus(s.devices[i], st)).(nextId := s.nextId))
    ensures AllContiguous(s) ==> AllContiguous(Put(s, i, DeviceRoutes.WithStatus(s.devices[i], st)).(nextId := s.nextId))
  {
    var d := s.devices[i];
    var d' := DeviceRoutes.WithStatus(d, st);
    assert forall j :: 0 <= j < |d.channels| ==> d'.channels[j].name == d.channels[j].name;
    PutKeepsChannelInvariants(s, i, d', s.nextId);
  }

  lemma ToggleChannelKeepsContiguous(s: Store, deviceId: string, channelId: nat)
    requires DeviceRoutes.ToggleChannel(s, deviceId, channelId).Ok?
    ensures AllContiguous(s) ==> AllContiguous(DeviceRoutes.ToggleChannel(s, deviceId, channelId).value.0)
  {
    var i := DeviceIndex(s, deviceId).value;
    var d := s.devices[i];
    var cs := Toggle(d.channels, channelId).value;
    assert forall j :: 0 <= j < |cs| ==> cs[j].name == d.channels[j].name;
    PutKeepsContiguous(s, i, d.(channels := cs), s.nextId);
  }

  lemma RenameChannelKeepsCascade(s: Store, channelId: Option<nat>, newName: Option<string>)
    requires DeviceRoutes.RenameChannel(s, channelId, newName).Ok?
    ensures AllCascade(s) ==> AllCascade(DeviceRoutes.RenameChannel(s, channelId, newName).value.0)
  {
    var i := DeviceIndexByChannel(s, channelId.value).value;
    var d := s.devices[i];
    var cs := Rename(d.channels, channelId.value, newName.value).value;
    var k := IndexOf(d.channels, channelId.value).value;
    forall j | 0 <= j < |cs|
      ensures cs[j].status == d.channels[j].status
    {
      if j == k {
        assert cs[k].(name := d.channels[k].name) == d.channels[k];
      }
    }
    PutKeepsCascade(s, i, d.(channels := cs), s.nextId);
  }

  lemma LoginKeepsChannelInvariants(s: Store, who: string, password: string, compare: (string, string) -> bool, token: string)
    requires UserRoutes.Login(s, who, password, compare, token).Ok?
    ensures AllCascade(s) ==> AllCascade(UserRoutes.Login(s, who, password, compare, token).value.0)
    ensures AllContiguous(s) ==> AllContiguous(UserRoutes.Login(s, who, password, compare, token).value.0)
  {
    var t := UserRoutes.Login(s, who, password, compare, token).value.0;
    assert forall j :: 0 <= j < |t.devices| ==>
      t.devices[j].channels == s.devices[j].channels && t.devices[j].status == s.devices[j].status;
  }

  /**
   * The channel invariants across every route: I4 survives all but the channel toggle, I3 all but
   * the channel rename.
   */
  lemma StepKeepsChannelInvariants(s: Store, req: Request)
    requires Valid(s)
    ensures Step(s, req).Ok? && AllCascade(s) && !req.ToggleChannel? ==> AllCascade(Step(s, req).value)
    ensures Step(s, req).Ok? && AllContiguous(s) && !req.RenameChannel? ==> AllContiguous(Step(s, req).value)
  {
    if req.RegisterDevice? || req.Initialize? || req.Unregister? || req.UpdateName? || req.AssignUser? {
      DeviceStepKeepsChannelInvariants(s, req);
    } else if req.AddChannel? || req.DeleteChannel? || req.ToggleChannel? || req.RenameChannel? {
      ChannelStepKeepsChannelInvariants(s, req);
    } else {
      OtherStepKeepsChannelInvariants(s, req);
    }
  }

  lemma DeviceStepKeepsChannelInvariants(s: Store, req: Request)
    requires req.RegisterDevice? || req.Initialize? || req.Unregister? || req.UpdateName? || req.AssignUser?
    ensures Step(s, req).Ok? && AllCascade(s) ==> AllCascade(Step(s, req).value)
    ensures Step(s, req).Ok? && AllContiguous(s) ==> AllContiguous(Step(s, req).value)
  {
    if Step(s, req).Ok? {
      if req.RegisterDevice? {
        var r := DeviceRoutes.Register(s, req.userId, req.deviceId, req.authToken);
        assert r.value.devices[..|s.devices|] == s.devices;
        AppendKeepsChannelInvariants(s, r.value);
      } else if req.Initialize? {
        if DeviceIndex(s, req.deviceId).None? {
          var t := DeviceRoutes.Initialize(s, req.deviceId, req.token).value.0;
          assert t.devices[..|s.devices|] == s.devices;
          AppendKeepsChannelInvariants(s, t);
        }
      } else if req.Unregister? {
        var i := DeviceIndex(s, req.deviceId).value;
        DropKeepsChannelInvariants(s, i, Step(s, req).value);
      } else if req.UpdateName? {
        var i := DeviceIndexByKey(s, req.deviceKey.value).value;
        PutSameChannels(s, i, s.devices[i].(name := req.newName), s.nextId);
      } else if req.AssignUser? {
        var i := DeviceIndex(s, req.deviceId).value;
        PutSameChannels(s, i, s.devices[i].(user := Some(req.userId)), s.nextId);
      }
    }
  }

  lemma ChannelStepKeepsChannelInvariants(s: Store, req: Request)
    requires Valid(s)
    requires req.AddChannel? || req.DeleteChannel? || req.ToggleChannel? || req.RenameChannel?
    ensures Step(s, req).Ok? && AllCascade(s) && !req.ToggleChannel? ==> AllCascade(Step(s, req).value)
    ensures Step(s, req).Ok? && AllContiguous(s) && !req.RenameChannel? ==> AllContiguous(Step(s, req).value)
  {
    if Step(s, req).Ok? {
      if req.AddChannel? {
        AddChannelKeepsChannelInvariants(s, req.deviceId);
      } else if req.DeleteChannel? {
        DeleteChannelKeepsChannelInvariants(s, req.deviceId, req.channelId);
      } else if req.ToggleChannel? {
        ToggleChannelKeepsContiguous(s, req.deviceId, req.channelId);
      } else {
        RenameChannelKeepsCascade(s, req.channelKey, req.newName);
      }
    }
  }

  lemma OtherStepKeepsChannelInvariants(s: Store, req: Request)
    requires req.ToggleStatus? || req.SetStatus? || req.Login? || req.SignUp?
    ensures Step(s, req).Ok? && AllCascade(s) ==> AllCascade(Step(s, req).value)
    ensures Step(s, req).Ok? && AllContiguous(s) ==> AllContiguous(Step(s, req).value)
  {
    if Step(s, req).Ok? {
      if req.ToggleStatus? {
        var i := DeviceIndex(s, req.deviceId).value;
        StatusChangeKeepsChannelInvariants(s, i, DeviceRoutes.Flip(s.devices[i].status));
      } else if req.SetStatus? {
        var i := DeviceIndex(s, req.deviceId).value;
        StatusChangeKeepsChannelInvariants(s, i, ParseStatus(req.status).value);
      } else if req.Login? {
        LoginKeepsChannelInvariants(s, req.who, req.password, req.compare, req.token);
      }
    }
  }

  /** A one-device store: device "dev", inactive, with one switched-off channel of ObjectId 1. */
  function InactiveSample(): Store
  {
    Store([Device(0, "dev", None, Inactive, None, Some("Device 1"), [NewChannel(1, "Channel 1")])], [], 2)
  }

  /**
   * The channel toggle does not look at the device's status: on an inactive device it switches a
   * channel on, so I4 does not survive it.
   */
  lemma ToggleChannelBreaksCascade()
    ensures AllCascade(InactiveSample())
    ensures var r := Step(InactiveSample(), ToggleChannel("dev", 1));
      r.Ok? && !AllCascade(r.value)
  {
    var s := InactiveSample();
    assert DeviceIndex(s, "dev") == Some(0);
    assert IndexOf(s.devices[0].channels, 1) == Some(0);
    var t := Step(s, ToggleChannel("dev", 1)).value;
    assert t.devices[0].channels[0].status;
  }

  /**
   * The channel rename accepts any unused name, "Channel 2" included, so I3 does not survive it;
   * the next added channel is then also named "Channel 2", and the device's `{name: status}` object
   * has one key for two channels.
   */
  lemma RenameThenAddDuplicates()
    ensures var r := Step(InactiveSample(), RenameChannel(Some(1), Some("Channel 2")));
      && AllContiguous(InactiveSample())
      && r.Ok? && !AllContiguous(r.value)
      && var r' := Step(r.value, AddChannel("dev"));
         && r'.Ok?
         && !DistinctNames(r'.value.devices[0].channels)
         && |StatusMap(r'.value.devices[0].channels).Keys| < |r'.value.devices[0].channels|
  {
    var s := InactiveSample();
    assert DeviceIndexByChannel(s, 1) == Some(0);
    assert IndexOf(s.devices[0].channels, 1) == Some(0);
    assert ChannelName(2) == "Channel 2";
    LabelInjective("Channel ", 1, 2);
    var t := Step(s, RenameChannel(Some(1), Some("Channel 2"))).value;
    assert t.devices[0].channels[0].name == "Channel 2";
    assert DeviceIndex(t, "dev") == Some(0);
    var u := Step(t, AddChannel("dev")).value;
    var cs := u.devices[0].channels;
    assert |cs| == 2 && cs[0].name == "Channel 2" && cs[1].name == "Channel 2";
    assert StatusMap(cs).Keys <= {"Channel 2"};
    assert |StatusMap(cs).Keys| <= |{"Channel 2"}|;
  }

  /**
   * The channel rename also accepts `ProtoKey` as a name; the device's `{name: status}` object then
   * has no key at all for its one channel.
   */
  lemma RenameToProtoHidesChannel()
    ensures var r := Step(InactiveSample(), RenameChannel(Some(1), Some(ProtoKey)));
      && r.Ok?
      && |r.value.devices[0].channels| == 1
      && StatusMap(r.value.devices[0].channels) == map[]
  {
    var s := InactiveSample();
    assert DeviceIndexByChannel(s, 1) == Some(0);
    assert IndexOf(s.devices[0].channels, 1) == Some(0);
    assert ChannelName(1)[0] == 'C' != ProtoKey[0];
    var t := Step(s, RenameChannel(Some(1), Some(ProtoKey))).value;
    var cs := t.devices[0].channels;
    assert |cs| == 1 && cs[0].name == ProtoKey;
    assert StatusMap(cs).Keys == {};
  }
}

=== FILE: naming.dfy ===
/**
 * Default names. A new device gets the first "Device n", n = 1, 2, ..., that no device holds
 * (the probe loop of register and initialize); a new channel is "Channel k".
 */
module Naming {
  import opened Wrappers
  import opened Decimal
  import opened Schema

  /** A template literal `${prefix}${n}`. */
  function Label(prefix: string, n: nat): string
  {
    prefix + NatToString(n)
  }

  function DeviceName(n: nat): string
  {
    Label("Device ", n)
  }

  function ChannelName(n: nat): string
  {
    Label("Channel ", n)
  }

  /** Distinct counters give distinct labels. */
  lemma LabelInjective(prefix: string, a: nat, b: nat)
    ensures Label(prefix, a) == Label(prefix, b) <==> a == b
  {
    if Label(prefix, a) == Label(prefix, b) {
      assert NatToString(a) == Label(prefix, a)[|prefix|..];
      assert NatToString(b) == Label(prefix, b)[|prefix|..];
      NatToStringInjective(a, b);
    }
  }

  /** The labels with counters 1 .. m. */
  ghost function Labels(prefix: string, m: nat): set<string>
  {
    if m == 0 then {} else Labels(prefix, m - 1) + {Label(prefix, m)}
  }

  lemma {:induction false} LabelsMembers(prefix: string, m: nat, name: string)
    ensures name in Labels(prefix, m) <==> exists k :: 1 <= k <= m && name == Label(prefix, k)
  {
    if m > 0 {
      LabelsMembers(prefix, m - 1, name);
    }
  }

  lemma {:induction false} LabelsSize(prefix: string, m: nat)
    ensures |Labels(prefix, m)| == m
  {
    if m > 0 {
      LabelsSize(prefix, m - 1);
      if Label(prefix, m) in Labels(prefix, m - 1) {
        LabelsMembers(prefix, m - 1, Label(prefix, m));
        var k :| 1 <= k <= m - 1 && Label(prefix, m) == Label(prefix, k);
        LabelInjective(prefix, m, k);
      }
    }
  }

  /** The probe `Device.findOne({ name })` finds a device. */
  predicate NameTaken(ds: seq<Device>, name: string)
  {
    exists i :: 0 <= i < |ds| && ds[i].name == Some(name)
  }

  /** The names the devices hold. */
  ghost function NamesOf(ds: seq<Device>): set<string>
    decreases |ds|
  {
    if ds == [] then {}
    else (if ds[0].name.Some? then {ds[0].name.value} else {}) + NamesOf(ds[1..])
  }

  lemma {:induction false} NamesOfBound(ds: seq<Device>)
    ensures |NamesOf(ds)| <= |ds|
    decreases |ds|
  {
    if ds != [] {
      NamesOfBound(ds[1..]);
    }
  }

  lemma {:induction false} NamesOfTaken(ds: seq<Device>, name: string)
    ensures name in NamesOf(ds) <==> NameTaken(ds, name)
    decreases |ds|
  {
    if ds != [] {
      NamesOfTaken(ds[1..], name);
      if NameTaken(ds[1..], name) {
        var i :| 0 <= i < |ds[1..]| && ds[1..][i].name == Some(name);
        assert ds[i + 1].name == Some(name);
      }
      if NameTaken(ds, name) && ds[0].name != Some(name) {
        var i :| 0 <= i < |ds| && ds[i].name == Some(name);
        assert ds[1..][i - 1].name == Some(name);
      }
    }
  }

  /** m distinct names all taken by devices needs at least m devices. */
  lemma Pigeonhole(ds: seq<Device>, m: nat)
    requires forall k :: 1 <= k <= m ==> NameTaken(ds, DeviceName(k))
    ensures m <= |ds|
  {
    forall name | name in Labels("Device ", m)
      ensures name in NamesOf(ds)
    {
      LabelsMembers("Device ", m, name);
      var k :| 1 <= k <= m && name == Label("Device ", k);
      assert name == DeviceName(k);
      NamesOfTaken(ds, name);
    }
    LabelsSize("Device ", m);
    NamesOfBound(ds);
    SubsetSize(Labels("Device ", m), NamesOf(ds));
  }

  lemma SubsetSize<T>(a: set<T>, b: set<T>)
    requires a <= b
    ensures |a| <= |b|
  {
    assert b == a + (b - a);
    assert a * (b - a) == {};
  }

  /**
   * The probe loop from `counter` on: the first index whose name is free. It stops at the latest
   * at |ds| + 1, since |ds| devices cannot hold |ds| + 1 distinct names.
   */
  function ProbeFrom(ds: seq<Device>, counter: nat): (n: nat)
    requires 1 <= counter <= |ds| + 1
    requires forall k :: 1 <= k < counter ==> NameTaken(ds, DeviceName(k))
    ensures counter <= n <= |ds| + 1
    ensures !NameTaken(ds, DeviceName(n))
    ensures forall k :: 1 <= k < n ==> NameTaken(ds, DeviceName(k))
    decreases |ds| + 1 - counter
  {
    if !NameTaken(ds, DeviceName(counter)) then counter
    else
      Pigeonhole(ds, counter);
      ProbeFrom(ds, counter + 1)
  }

  /** The index the loop settles on, started at counter = 1. */
  function FreeIndex(ds: seq<Device>): (n: nat)
    ensures 1 <= n <= |ds| + 1
    ensures !NameTaken(ds, DeviceName(n))
    ensures forall k :: 1 <= k < n ==> NameTaken(ds, DeviceName(k))
  {
    ProbeFrom(ds, 1)
  }

  /** The generated name: "Device n" for the least free n. */
  function FreshDeviceName(ds: seq<Device>): string
  {
    DeviceName(FreeIndex(ds))
  }

  /** The index is determined: any free index with every smaller one taken is the loop's result. */
  lemma FreeIndexIsLeast(ds: seq<Device>, m: nat)
    requires 1 <= m
    requires !NameTaken(ds, DeviceName(m))
    requires forall k :: 1 <= k < m ==> NameTaken(ds, DeviceName(k))
    ensures FreeIndex(ds) == m
  {
    var n := FreeIndex(ds);
  }
}

=== FILE: properties.dfy ===
/**
 * Relations between routes: the inverse pairs (register/unregister, add/delete channel, toggle
 * twice, rename and rename back), the get-or-create contract of initialize, and the order in which
 * default device names are handed out.
 */
module Properties {
  import opened Wrappers
  import opened Seqs
  import opened Schema
  import opened Naming
  import opened Channels
  import opened Repository
  import DeviceRoutes
  import UserRoutes

  /** Writing back a device under the same `deviceId` leaves every lookup by `deviceId` as it was. */
  lemma PutKeepsLookup(s: Store, i: nat, d: Device, n: nat, deviceId: string)
    requires i < |s.devices| && d.deviceId == s.devices[i].deviceId
    ensures DeviceIndex(Put(s, i, d).(nextId := n), deviceId) == DeviceIndex(s, deviceId)
  {
    var t := Put(s, i, d).(nextId := n);
    assert forall j :: 0 <= j < |t.devices| ==> t.devices[j].deviceId == s.devices[j].deviceId;
  }

  // ---------------------------------------------------------------------------------------------
  // Register and unregister

  /**
   * Unregistering a device right after its owner registered it gives back the store as it was,
   * except for the ObjectId spent.
   */
  lemma RegisterThenUnregister(s: Store, userId: nat, deviceId: string, authToken: Option<string>)
    requires Valid(s)
    requires DeviceRoutes.Register(s, userId, deviceId, authToken).Ok?
    ensures var t := DeviceRoutes.Register(s, userId, deviceId, authToken).value;
      DeviceRoutes.Unregister(t, deviceId, userId) == Ok(s.(nextId := s.nextId + 1))
  {
    var u := UserIndex(s, userId).value;
    var ks := s.users[u].devices;
    assert s.nextId !in ks;
    var nd := NewDevice(s.nextId, deviceId, authToken, Some(userId), Some(FreshDeviceName(s.devices)));
    var t := Store(s.devices + [nd], s.users[u := s.users[u].(devices := ks + [s.nextId])], s.nextId + 1);
    assert DeviceRoutes.Register(s, userId, deviceId, authToken) == Ok(t);
    UnregisterAfterRegister(s, t, u, deviceId, userId);
  }

  /** The unregister half of RegisterThenUnregister, on the store the register wrote. */
  lemma UnregisterAfterRegister(s: Store, t: Store, u: nat, deviceId: string, userId: nat)
    requires UserIndex(s, userId) == Some(u) && DeviceIndex(s, deviceId).None?
    requires s.nextId !in s.users[u].devices
    requires |t.devices| == |s.devices| + 1 && t.devices[..|s.devices|] == s.devices
    requires t.devices[|s.devices|].deviceId == deviceId && t.devices[|s.devices|].user == Some(userId)
    requires t.devices[|s.devices|].key == s.nextId && t.nextId == s.nextId + 1
    requires t.users == s.users[u := s.users[u].(devices := s.users[u].devices + [s.nextId])]
    ensures DeviceRoutes.Unregister(t, deviceId, userId) == Ok(s.(nextId := s.nextId + 1))
  {
    var n := |s.devices|;
    var ks := s.users[u].devices;
    AppendedFound(s, t, deviceId);
    assert forall j :: 0 <= j < |s.users| ==> t.users[j].key == s.users[j].key;
    assert UserIndex(t, userId) == Some(u);
    assert DeviceRoutes.Unregister(t, deviceId, userId)
        == Ok(Store(DeviceRoutes.Drop(t.devices, n),
                    t.users[u := t.users[u].(devices := DeviceRoutes.Pull(ks + [s.nextId], s.nextId))], t.nextId));
    DeviceRoutes.PullAppended(ks, s.nextId);
    assert t.users[u := t.users[u].(devices := ks)] == s.users;
  }

  /** A device appended under an unused `deviceId` is found last, and dropping it restores the list. */
  lemma AppendedFound(s: Store, t: Store, deviceId: string)
    requires DeviceIndex(s, deviceId).None?
    requires |t.devices| == |s.devices| + 1 && t.devices[..|s.devices|] == s.devices
    requires t.devices[|s.devices|].deviceId == deviceId
    ensures DeviceIndex(t, deviceId) == Some(|s.devices|)
    ensures DeviceRoutes.Drop(t.devices, |s.devices|) == s.devices
  {
    assert forall j :: 0 <= j < |s.devices| ==> t.devices[j] == s.devices[j];
  }

  // ---------------------------------------------------------------------------------------------
  // Channels

  /** Renumbering a list that is already numbered 1..n changes nothing. */
  lemma RenumberContiguous(cs: seq<Channel>)
    requires Contiguous(cs)
    ensures Renumber(cs) == cs
  {
    var r := Renumber(cs);
    forall i | 0 <= i < |cs|
      ensures r[i] == cs[i]
    {
      assert r[i] == cs[i].(name := ChannelName(i + 1));
    }
  }

  /** Deleting the channel just added to a contiguous list gives back the list. */
  lemma AppendThenRemove(cs: seq<Channel>, id: nat)
    requires Contiguous(cs) && DistinctIds(cs)
    requires forall j :: 0 <= j < |cs| ==> cs[j].id != id
    ensures Remove(Append(cs, id), id) == Ok(cs)
  {
    var a := Append(cs, id);
    var k := |cs|;
    assert forall j :: 0 <= j < k ==> a[j] == cs[j];
    assert DistinctIds(a);
    assert IndexOf(a, id) == Some(k);
    RemoveDropsTarget(a, k);
    assert a[..k] + a[k + 1..] == cs;
    RenumberContiguous(cs);
  }

  /**
   * Adding a channel to a device with contiguous channels and deleting it again gives back the
   * store, except for the ObjectId spent.
   */
  lemma AddChannelThenDelete(s: Store, deviceId: string)
    requires Valid(s)
    requires DeviceRoutes.AddChannel(s, deviceId).Ok?
    requires Contiguous(s.devices[DeviceIndex(s, deviceId).value].channels)
    ensures var t := DeviceRoutes.AddChannel(s, deviceId).value;
      DeviceRoutes.DeleteChannel(t, deviceId, s.nextId) == Ok(s.(nextId := s.nextId + 1))
  {
    var i := DeviceIndex(s, deviceId).value;
    var cs := s.devices[i].channels;
    forall j | 0 <= j < |cs|
      ensures cs[j].id != s.nextId
    {
      assert cs[j] in s.devices[i].channels;
    }
    DeleteAfterAdd(s, deviceId, i);
  }

  /** AddChannelThenDelete on the facts it needs from Valid. */
  lemma DeleteAfterAdd(s: Store, deviceId: string, i: nat)
    requires DeviceIndex(s, deviceId) == Some(i)
    requires var cs := s.devices[i].channels;
      && Contiguous(cs) && DistinctIds(cs)
      && forall j :: 0 <= j < |cs| ==> cs[j].id != s.nextId
    ensures DeviceRoutes.AddChannel(s, deviceId).Ok?
    ensures var t := DeviceRoutes.AddChannel(s, deviceId).value;
      DeviceRoutes.DeleteChannel(t, deviceId, s.nextId) == Ok(s.(nextId := s.nextId + 1))
  {
    var d := s.devices[i];
    var d' := d.(channels := Append(d.channels, s.nextId));
    var t := Put(s, i, d').(nextId := s.nextId + 1);
    assert DeviceRoutes.AddChannel(s, deviceId) == Ok(t);
    PutKeepsLookup(s, i, d', s.nextId + 1, deviceId);
    AppendThenRemove(d.channels, s.nextId);
    assert t.devices[i] == d';
    assert DeviceRoutes.DeleteChannel(t, deviceId, s.nextId) == Ok(Put(t, i, d));
    assert s.devices[i := d'][i := d] == s.devices;
  }

  /** Toggling the same channel twice gives back the list. */
  lemma ToggleTwice(cs: seq<Channel>, id: nat)
    requires Toggle(cs, id).Ok?
    ensures Toggle(Toggle(cs, id).value, id) == Ok(cs)
  {
    var r := Toggle(cs, id).value;
    var k := IndexOf(cs, id).value;
    assert forall j :: 0 <= j < |cs| ==> r[j].id == cs[j].id;
    assert IndexOf(r, id) == Some(k);
    var r' := Toggle(r, id).value;
    assert r'[k] == cs[k];
    assert forall j :: 0 <= j < |cs| ==> r'[j] == cs[j];
    assert r' == cs;
  }

  /** PUT /devices/channels twice on the same channel gives back the store. */
  lemma ToggleChannelTwice(s: Store, deviceId: string, channelId: nat)
    requires DeviceRoutes.ToggleChannel(s, deviceId, channelId).Ok?
    ensures var t := DeviceRoutes.ToggleChannel(s, deviceId, channelId).value.0;
      DeviceRoutes.ToggleChannel(t, deviceId, channelId).Ok?
      && DeviceRoutes.ToggleChannel(t, deviceId, channelId).value.0 == s
  {
    var i := DeviceIndex(s, deviceId).value;
    var d := s.devices[i];
    var d' := d.(channels := Toggle(d.channels, channelId).value);
    PutKeepsLookup(s, i, d', s.nextId, deviceId);
    ToggleTwice(d.channels, channelId);
    assert s.devices[i := d'][i := d] == s.devices;
  }

  /** Renaming a channel and renaming it back to its old name gives back the list. */
  lemma RenameBack(cs: seq<Channel>, id: nat, newName: string)
    requires DistinctNames(cs)
    requires Rename(cs, id, newName).Ok?
    ensures Rename(Rename(cs, id, newName).value, id, cs[IndexOf(cs, id).value].name) == Ok(cs)
  {
    var k := IndexOf(cs, id).value;
    var r := cs[k := cs[k].(name := newName)];
    assert Rename(cs, id, newName) == Ok(r);
    IdsKept(cs, r, id, k);
    assert forall j :: 0 <= j < |r| && r[j].name == cs[k].name ==> r[j].id == id;
    RenameUnused(r, k, cs[k].name);
    assert r[k := r[k].(name := cs[k].name)] == cs;
  }

  /** A list with the same ids position by position finds an id at the same place. */
  lemma IdsKept(cs: seq<Channel>, r: seq<Channel>, id: nat, k: nat)
    requires IndexOf(cs, id) == Some(k)
    requires |r| == |cs| && forall j :: 0 <= j < |cs| ==> r[j].id == cs[j].id
    ensures IndexOf(r, id) == Some(k)
  {
  }

  /** Renaming the k-th channel to a name only channels with its id carry. */
  lemma RenameUnused(cs: seq<Channel>, k: nat, name: string)
    requires k < |cs| && IndexOf(cs, cs[k].id) == Some(k)
    requires forall j :: 0 <= j < |cs| && cs[j].name == name ==> cs[j].id == cs[k].id
    ensures Rename(cs, cs[k].id, name) == Ok(cs[k := cs[k].(name := name)])
  {
  }

  // ---------------------------------------------------------------------------------------------
  // Device status

  /**
   * Flipping the status twice brings the status back but leaves every channel of the device off:
   * the cascade runs on whichever of the two flips makes the device inactive.
   */
  lemma ToggleStatusTwice(s: Store, deviceId: string)
    requires DeviceRoutes.ToggleStatus(s, deviceId).Ok?
    ensures var t := DeviceRoutes.ToggleStatus(s, deviceId).value;
      var i := DeviceIndex(s, deviceId).value;
      DeviceRoutes.ToggleStatus(t, deviceId)
        == Ok(Put(s, i, s.devices[i].(channels := AllOff(s.devices[i].channels))))
  {
    var t := DeviceRoutes.ToggleStatus(s, deviceId).value;
    var i := DeviceIndex(s, deviceId).value;
    var d := s.devices[i];
    assert forall j :: 0 <= j < |t.devices| ==> t.devices[j].deviceId == s.devices[j].deviceId;
    assert DeviceIndex(t, deviceId) == Some(i);
    var e := DeviceRoutes.WithStatus(DeviceRoutes.WithStatus(d, DeviceRoutes.Flip(d.status)),
                                     DeviceRoutes.Flip(DeviceRoutes.Flip(d.status)));
    var off := AllOff(d.channels);
    assert |e.channels| == |off|;
    assert forall j :: 0 <= j < |off| ==> e.channels[j] == off[j];
    assert e == d.(channels := off);
    assert t.devices[i := e] == s.devices[i := d.(channels := off)];
  }

  /** On a device that keeps the cascade, flipping the status twice changes nothing. */
  lemma ToggleStatusTwiceInactive(s: Store, deviceId: string)
    requires DeviceRoutes.ToggleStatus(s, deviceId).Ok?
    requires var d := s.devices[DeviceIndex(s, deviceId).value]; d.status == Inactive && CascadeHolds(d)
    ensures var t := DeviceRoutes.ToggleStatus(s, deviceId).value;
      DeviceRoutes.ToggleStatus(t, deviceId) == Ok(s)
  {
    var i := DeviceIndex(s, deviceId).value;
    var d := s.devices[i];
    ToggleStatusTwice(s, deviceId);
    var off := AllOff(d.channels);
    assert forall j :: 0 <= j < |off| ==> off[j] == d.channels[j];
    assert off == d.channels;
    assert s.devices[i := d.(channels := off)] == s.devices;
  }

  // ---------------------------------------------------------------------------------------------
  // Initialize

  /**
   * Get-or-create: once initialize has answered for a device id, asking again, with any freshly
   * minted token, writes nothing and answers with the same credentials.
   */
  lemma InitializeIdempotent(s: Store, deviceId: string, token: string, token': string)
    requires DeviceRoutes.Initialize(s, deviceId, token).Ok?
    ensures var (t, c) := DeviceRoutes.Initialize(s, deviceId, token).value;
      DeviceRoutes.Initialize(t, deviceId, token') == Ok((t, c))
  {
    var t := DeviceRoutes.Initialize(s, deviceId, token).value.0;
    if DeviceIndex(s, deviceId).None? {
      var n := |s.devices|;
      assert forall j :: 0 <= j < n ==> t.devices[j] == s.devices[j];
      assert t.devices[n].deviceId == deviceId;
      assert DeviceIndex(t, deviceId) == Some(n);
    }
  }

  /** When the devices are named "Device 1" up to "Device n" in order, the next name is n + 1. */
  lemma FreeIndexAfterSequence(ds: seq<Device>)
    requires forall j :: 0 <= j < |ds| ==> ds[j].name == Some(DeviceName(j + 1))
    ensures FreeIndex(ds) == |ds| + 1
  {
    var m := |ds| + 1;
    forall j | 0 <= j < |ds|
      ensures ds[j].name != Some(DeviceName(m))
    {
      LabelInjective("Device ", j + 1, m);
    }
    forall k | 1 <= k < m
      ensures NameTaken(ds, DeviceName(k))
    {
      assert ds[k - 1].name == Some(DeviceName(k));
    }
    FreeIndexIsLeast(ds, m);
  }

  /**
   * The default name is the least free one: after "Device 1" is unregistered, the next device
   * gets "Device 1" again, whatever other names are taken.
   */
  lemma FreeIndexReusesGap(ds: seq<Device>)
    requires forall j :: 0 <= j < |ds| ==> ds[j].name != Some(DeviceName(1))
    ensures FreeIndex(ds) == 1
  {
    FreeIndexIsLeast(ds, 1);
  }

  /**
   * Two devices initialized one after the other on an empty store are named "Device 1" and
   * "Device 2".
   */
  lemma InitializeNamesInOrder(a: string, ta: string, b: string, tb: string)
    requires DeviceRoutes.Initialize(Store([], [], 0), a, ta).Ok?
    requires var s := DeviceRoutes.Initialize(Store([], [], 0), a, ta).value.0;
      DeviceRoutes.Initialize(s, b, tb).Ok? && a != b
    ensures var (s, ca) := DeviceRoutes.Initialize(Store([], [], 0), a, ta).value;
      && ca.name == Some("Device 1")
      && DeviceRoutes.Initialize(s, b, tb).value.1.name == Some("Device 2")
  {
    var e := Store([], [], 0);
    FreeIndexAfterSequence(e.devices);
    assert DeviceName(1) == "Device 1";
    var s := DeviceRoutes.Initialize(e, a, ta).value.0;
    assert DeviceIndex(s, b).None?;
    FreeIndexAfterSequence(s.devices);
    assert DeviceName(2) == "Device 2";
  }

  // ---------------------------------------------------------------------------------------------
  // Accounts

  /**
   * A new account can log in with its username right away, provided no older account has that
   * username as its email (the login looks up either field, the sign-up compares like with like).
   */
  lemma SignUpThenLogin(s: Store, username: string, email: string, password: string,
                        compare: (string, string) -> bool, token: string)
    requires UserRoutes.SignUp(s, username, email, password).Ok?
    requires forall j :: 0 <= j < |s.users| ==> s.users[j].email != username
    requires compare(password, password)
    ensures var t := UserRoutes.SignUp(s, username, email, password).value;
      && UserRoutes.Login(t, username, password, compare, token).Ok?
      && UserRoutes.Login(t, username, password, compare, token).value.1 == s.nextId
  {
    var t := UserRoutes.SignUp(s, username, email, password).value;
    assert forall j :: 0 <= j < |s.users| ==> t.users[j] == s.users[j];
    assert t.users[|s.users|].username == username;
    assert UserRoutes.LoginIndex(t, username) == Some(|s.users|);
  }
}

=== FILE: schema.dfy ===
/**
 * The Mongoose schemas of models/device.js as datatypes, with the schema defaults and the
 * validation that `save` performs, and the user record the routes read and write.
 */
module Schema {
  import opened Wrappers

  /** The `status` enum of a device. */
  datatype DeviceStatus = Active | Inactive

  /** Casts a request string to the enum; None when Mongoose's enum validator would reject it. */
  function ParseStatus(s: string): (r: Option<DeviceStatus>)
    ensures r == Some(Active) <==> s == "active"
    ensures r == Some(Inactive) <==> s == "inactive"
    ensures r.None? <==> s != "active" && s != "inactive"
  {
    if s == "active" then Some(Active)
    else if s == "inactive" then Some(Inactive)
    else None
  }

  /** The optional schedule of a channel; `None` is the stored null. */
  datatype Timeout = Timeout(time: Option<string>, date: Option<string>)

  /** A channel sub-document. `id` is its ObjectId. */
  datatype Channel = Channel(id: nat, name: string, status: bool, timeout: Timeout)

  /**
   * A device document. `key` is the ObjectId `_id`; `deviceId` is the externally supplied id.
   * `token` is absent when it was never given; `user` and `name` are optional.
   */
  datatype Device = Device(
    key: nat,
    deviceId: string,
    token: Option<string>,
    status: DeviceStatus,
    user: Option<nat>,
    name: Option<string>,
    channels: seq<Channel>)

  /** A user document: only the fields the routes read or write. */
  datatype User = User(key: nat, username: string, email: string, password: string, devices: seq<nat>)

  /** A channel created with only a name: the schema fills in status and the timeout pair. */
  function NewChannel(id: nat, name: string): (c: Channel)
    ensures c.id == id && c.name == name
    ensures !c.status
    ensures c.timeout.time.None? && c.timeout.date.None?
  {
    Channel(id, name, false, Timeout(None, None))
  }

  /** A device created without `status` or `channels`: active, with no channels. */
  function NewDevice(key: nat, deviceId: string, token: Option<string>, user: Option<nat>, name: Option<string>): (d: Device)
    ensures d.status == Active
    ensures d.channels == []
    ensures d.key == key && d.deviceId == deviceId && d.token == token && d.user == user && d.name == name
  {
    Device(key, deviceId, token, Active, user, name, [])
  }

  /**
   * What `save` validates: Mongoose's `required` rejects a missing or empty string, so the
   * device needs a non-empty `deviceId` and every channel a non-empty name.
   */
  predicate Conforms(d: Device)
  {
    && d.deviceId != ""
    && forall i :: 0 <= i < |d.channels| ==> d.channels[i].name != ""
  }

  /** Invariant I4 of one device: an inactive device has every channel switched off. */
  predicate CascadeHolds(d: Device)
  {
    d.status == Inactive ==> forall i :: 0 <= i < |d.channels| ==> !d.channels[i].status
  }
}

=== FILE: store.dfy ===
/**
 * The document store as an immutable value: the device and user collections in natural order, and
 * the ObjectId allocator. `findOne` is the first match in that order.
 */
module Repository {
  import opened Wrappers
  import opened Seqs
  import opened Schema
  import opened Channels

  /** `nextId` is the next ObjectId to hand out; devices, users and channels draw from it. */
  datatype Store = Store(devices: seq<Device>, users: seq<User>, nextId: nat)

  /** `Device.findOne({ deviceId })`. */
  function DeviceIndex(s: Store, deviceId: string): (r: Option<nat>)
    ensures r.Some? ==> r.value < |s.devices| && s.devices[r.value].deviceId == deviceId
    ensures r.Some? ==> forall j :: 0 <= j < r.value ==> s.devices[j].deviceId != deviceId
    ensures r.None? <==> forall j :: 0 <= j < |s.devices| ==> s.devices[j].deviceId != deviceId
  {
    Find(s.devices, (d: Device) => d.deviceId == deviceId)
  }

  /** `Device.findById(key)`. */
  function DeviceIndexByKey(s: Store, key: nat): (r: Option<nat>)
    ensures r.Some? ==> r.value < |s.devices| && s.devices[r.value].key == key
    ensures r.Some? ==> forall j :: 0 <= j < r.value ==> s.devices[j].key != key
    ensures r.None? <==> forall j :: 0 <= j < |s.devices| ==> s.devices[j].key != key
  {
    Find(s.devices, (d: Device) => d.key == key)
  }

  /** `Device.findOne({ name })`. */
  function DeviceIndexByName(s: Store, name: string): (r: Option<nat>)
    ensures r.Some? ==> r.value < |s.devices| && s.devices[r.value].name == Some(name)
    ensures r.Some? ==> forall j :: 0 <= j < r.value ==> s.devices[j].name != Some(name)
    ensures r.None? <==> forall j :: 0 <= j < |s.devices| ==> s.devices[j].name != Some(name)
  {
    Find(s.devices, (d: Device) => d.name == Some(name))
  }

  /** `Device.findOne({ "channels._id": channelId })`. */
  function DeviceIndexByChannel(s: Store, channelId: nat): (r: Option<nat>)
    ensures r.Some? ==> r.value < |s.devices| && IndexOf(s.devices[r.value].channels, channelId).Some?
    ensures r.Some? ==> forall j :: 0 <= j < r.value ==> IndexOf(s.devices[j].channels, channelId).None?
    ensures r.None? <==> forall j :: 0 <= j < |s.devices| ==> IndexOf(s.devices[j].channels, channelId).None?
  {
    Find(s.devices, (d: Device) => IndexOf(d.channels, channelId).Some?)
  }

  /** `User.findById(key)`. */
  function UserIndex(s: Store, key: nat): (r: Option<nat>)
    ensures r.Some? ==> r.value < |s.users| && s.users[r.value].key == key
    ensures r.Some? ==> forall j :: 0 <= j < r.value ==> s.users[j].key != key
    ensures r.None? <==> forall j :: 0 <= j < |s.users| ==> s.users[j].key != key
  {
    Find(s.users, (u: User) => u.key == key)
  }

  /** Writes back the i-th device; everything else stays. */
  function Put(s: Store, i: nat, d: Device): (r: Store)
    requires i < |s.devices|
    ensures |r.devices| == |s.devices| && r.devices[i] == d
    ensures forall j :: 0 <= j < |s.devices| && j != i ==> r.devices[j] == s.devices[j]
    ensures r.users == s.users && r.nextId == s.nextId
  {
    s.(devices := s.devices[i := d])
  }

  /**
   * `save()` of a new device: the schema's `required` validation and the unique index on
   * `deviceId` either let the document in at the end of the collection or throw (500).
   */
  function Insert(s: Store, d: Device): (r: Result<Store>)
    ensures r.Ok? <==> Conforms(d) && DeviceIndex(s, d.deviceId).None?
    ensures r.Err? ==> r.failure == Internal
    ensures r.Ok? ==> r.value.devices == s.devices + [d] && r.value.users == s.users && r.value.nextId == s.nextId
  {
    if Conforms(d) && DeviceIndex(s, d.deviceId).None? then Ok(s.(devices := s.devices + [d]))
    else Err(Internal)
  }

  /** I1: `deviceId` is unique across all devices. */
  predicate UniqueDeviceIds(ds: seq<Device>)
  {
    forall i, j :: 0 <= i < j < |ds| ==> ds[i].deviceId != ds[j].deviceId
  }

  /** I2, global scope: no two devices share a name. */
  predicate UniqueDeviceNames(ds: seq<Device>)
  {
    forall i, j :: 0 <= i < j < |ds| && ds[i].name.Some? ==> ds[i].name != ds[j].name
  }

  predicate UniqueKeys(ds: seq<Device>)
  {
    forall i, j :: 0 <= i < j < |ds| ==> ds[i].key != ds[j].key
  }

  predicate UniqueUserKeys(us: seq<User>)
  {
    forall i, j :: 0 <= i < j < |us| ==> us[i].key != us[j].key
  }

  /** Every ObjectId in use was handed out before `nextId`. */
  predicate IdsBelow(s: Store)
  {
    && (forall i :: 0 <= i < |s.devices| ==> s.devices[i].key < s.nextId)
    && (forall i :: 0 <= i < |s.users| ==> s.users[i].key < s.nextId)
    && (forall i, c :: 0 <= i < |s.devices| && c in s.devices[i].channels ==> c.id < s.nextId)
    && (forall i, k :: 0 <= i < |s.users| && k in s.users[i].devices ==> k < s.nextId)
  }

  /** What every reachable store satisfies. */
  predicate Valid(s: Store)
  {
    && UniqueDeviceIds(s.devices)
    && UniqueDeviceNames(s.devices)
    && UniqueKeys(s.devices)
    && UniqueUserKeys(s.users)
    && IdsBelow(s)
    && (forall i :: 0 <= i < |s.devices| ==> Conforms(s.devices[i]) && DistinctIds(s.devices[i].channels))
  }
}

=== FILE: users.dfy ===
/**
 * The account routes of src/routes/user.js. Password hashing, its comparison and the minting of
 * the session token are foreign code: the comparison is a parameter and the token an argument.
 */
module UserRoutes {
  import opened Wrappers
  import opened Seqs
  import opened Schema
  import opened Repository

  /** `User.findOne().or([{ username: who }, { email: who }])`. */
  function LoginIndex(s: Store, who: string): (r: Option<nat>)
    ensures r.Some? ==> r.value < |s.users| && (s.users[r.value].username == who || s.users[r.value].email == who)
    ensures r.Some? ==> forall j :: 0 <= j < r.value ==> s.users[j].username != who && s.users[j].email != who
    ensures r.None? <==> forall j :: 0 <= j < |s.users| ==> s.users[j].username != who && s.users[j].email != who
  {
    Find(s.users, (u: User) => u.username == who || u.email == who)
  }

  /** Re-issues `token` to every device owned by `owner`; every other device keeps its token. */
  function FanOut(ds: seq<Device>, owner: nat, token: string): (r: seq<Device>)
    ensures |r| == |ds|
    ensures forall i :: 0 <= i < |ds| && ds[i].user == Some(owner) ==> r[i] == ds[i].(token := Some(token))
    ensures forall i :: 0 <= i < |ds| && ds[i].user != Some(owner) ==> r[i] == ds[i]
  {
    seq(|ds|, i requires 0 <= i < |ds| => if ds[i].user == Some(owner) then ds[i].(token := Some(token)) else ds[i])
  }

  /**
   * POST /login. 401 when no user has `who` as username or email, or when the password comparison
   * fails, and then no device changes. Otherwise the user's ObjectId is answered and `token`
   * replaces the token of exactly that user's devices.
   */
  function Login(s: Store, who: string, password: string, compare: (string, string) -> bool, token: string)
    : (r: Result<(Store, nat)>)
    ensures r.Err? <==> LoginIndex(s, who).None? || !compare(password, s.users[LoginIndex(s, who).value].password)
    ensures r.Err? ==> r.failure == Unauthorized
    ensures r.Ok? ==>
              var owner := s.users[LoginIndex(s, who).value].key;
              && r.value.1 == owner
              && r.value.0.users == s.users && r.value.0.nextId == s.nextId
              && r.value.0.devices == FanOut(s.devices, owner, token)
  {
    match LoginIndex(s, who)
    case None => Err(Unauthorized)
    case Some(u) =>
      var user := s.users[u];
      if !compare(password, user.password) then Err(Unauthorized)
      else Ok((s.(devices := FanOut(s.devices, user.key, token)), user.key))
  }

  /**
   * POST /register. 409 when some user already has the username or the email; otherwise exactly
   * one user, with those fields and no devices, is appended under a fresh ObjectId.
   */
  function SignUp(s: Store, username: string, email: string, password: string): (r: Result<Store>)
    ensures r.Err? <==>
              exists j :: 0 <= j < |s.users| && (s.users[j].username == username || s.users[j].email == email)
    ensures r.Err? ==> r.failure == Conflict
    ensures r.Ok? ==>
              && r.value.users == s.users + [User(s.nextId, username, email, password, [])]
              && r.value.devices == s.devices
              && r.value.nextId == s.nextId + 1
  {
    if Find(s.users, (u: User) => u.username == username || u.email == email).Some? then Err(Conflict)
    else Ok(Store(s.devices, s.users + [User(s.nextId, username, email, password, [])], s.nextId + 1))
  }
}

=== FILE: validate.dfy ===
/**
 * The record validator of app/validate.js: a device id in UUID version 4 form (five hyphen-separated
 * hexadecimal groups of 8, 4, 4, 4 and 12 digits, version digit 4, variant digit one of 8 9 a b in
 * either case), and a required non-empty name and token.
 */
module Validate {
  import opened Wrappers

  predicate IsHex(c: char)
  {
    '0' <= c <= '9' || 'a' <= c <= 'f' || 'A' <= c <= 'F'
  }

  /** One bracket expression or literal of the pattern. */
  datatype CharClass = HexDigit | Literal(c: char) | AnyOf(cs: string)
  {
    predicate Admits(ch: char)
    {
      match this
      case HexDigit => IsHex(ch)
      case Literal(c) => ch == c
      case AnyOf(cs) => ch in cs
    }
  }

  /** `{n}`: the class repeated n times. */
  function Rep(k: CharClass, n: nat): (r: seq<CharClass>)
    ensures |r| == n
    ensures forall i :: 0 <= i < n ==> r[i] == k
  {
    seq(n, _ => k)
  }

  /** The pattern, one class per character position; it has no alternation or unbounded repetition. */
  function UuidV4Pattern(): seq<CharClass>
  {
    Rep(HexDigit, 8) + [Literal('-')]
    + Rep(HexDigit, 4) + [Literal('-')]
    + [Literal('4')] + Rep(HexDigit, 3) + [Literal('-')]
    + [AnyOf("89aAbB")] + Rep(HexDigit, 3) + [Literal('-')]
    + Rep(HexDigit, 12)
  }

  /** Anchored at both ends: the whole string, and nothing more, matches the pattern. */
  predicate Matches(p: seq<CharClass>, s: string)
  {
    |p| == |s| && forall i :: 0 <= i < |s| ==> p[i].Admits(s[i])
  }

  predicate IsUuidV4(s: string)
  {
    Matches(UuidV4Pattern(), s)
  }

  /** Positions of the hyphens, the version digit and the variant digit. */
  predicate IsFixedPosition(i: int)
  {
    i == 8 || i == 13 || i == 14 || i == 18 || i == 19 || i == 23
  }

  /** The accepted ids described position by position. */
  ghost predicate UuidShape(s: string)
  {
    && |s| == 36
    && s[8] == '-' && s[13] == '-' && s[18] == '-' && s[23] == '-'
    && s[14] == '4'
    && s[19] in "89aAbB"
    && forall i :: 0 <= i < 36 && !IsFixedPosition(i) ==> IsHex(s[i])
  }

  lemma PatternAt(i: nat)
    requires i < 36
    ensures |UuidV4Pattern()| == 36
    ensures i == 8 || i == 13 || i == 18 || i == 23 ==> UuidV4Pattern()[i] == Literal('-')
    ensures i == 14 ==> UuidV4Pattern()[i] == Literal('4')
    ensures i == 19 ==> UuidV4Pattern()[i] == AnyOf("89aAbB")
    ensures !IsFixedPosition(i) ==> UuidV4Pattern()[i] == HexDigit
  {
    var g1 := Rep(HexDigit, 8) + [Literal('-')];
    var g2 := g1 + Rep(HexDigit, 4) + [Literal('-')];
    var g3 := g2 + [Literal('4')] + Rep(HexDigit, 3) + [Literal('-')];
    var g4 := g3 + [AnyOf("89aAbB")] + Rep(HexDigit, 3) + [Literal('-')];
    var p := g4 + Rep(HexDigit, 12);
    assert p == UuidV4Pattern();
    assert |g1| == 9 && |g2| == 14 && |g3| == 19 && |g4| == 24;
    if i < 9 {
      assert p[i] == g1[i];
    } else if i < 14 {
      assert p[i] == g2[i];
    } else if i < 19 {
      assert p[i] == g3[i];
    } else if i < 24 {
      assert p[i] == g4[i];
    }
  }

  /** The pattern accepts exactly the strings of UUID version 4 shape (both directions). */
  lemma UuidV4Characterized(s: string)
    ensures IsUuidV4(s) <==> UuidShape(s)
  {
    PatternAt(0);
    if IsUuidV4(s) {
      PatternAt(8); PatternAt(13); PatternAt(18); PatternAt(23); PatternAt(14); PatternAt(19);
      forall i | 0 <= i < 36 && !IsFixedPosition(i)
        ensures IsHex(s[i])
      {
        PatternAt(i);
      }
    }
    if UuidShape(s) {
      forall i | 0 <= i < |s|
        ensures UuidV4Pattern()[i].Admits(s[i])
      {
        PatternAt(i);
      }
    }
  }

  /** ASCII lower-casing (the only case distinction the pattern's classes make). */
  function Lower(c: char): char
  {
    if 'A' <= c <= 'Z' then (c as int + 32) as char else c
  }

  /** Hexadecimal digits are accepted in either case: changing the case of letters keeps the verdict. */
  lemma UuidV4CaseInsensitive(s: string, t: string)
    requires |s| == |t|
    requires forall i :: 0 <= i < |s| ==> Lower(s[i]) == Lower(t[i])
    ensures IsUuidV4(s) <==> IsUuidV4(t)
  {
    PatternAt(0);
    if |s| == 36 {
      forall i | 0 <= i < |s|
        ensures UuidV4Pattern()[i].Admits(s[i]) <==> UuidV4Pattern()[i].Admits(t[i])
      {
        PatternAt(i);
      }
    }
  }

  /** The fields of the record passed to the validator; `None` is a missing key. */
  datatype Record = Record(deviceId: Option<string>, name: Option<string>, token: Option<string>)

  datatype Field = DeviceIdField | NameField | TokenField

  /** The verdict: accepted, or the first offending key in declaration order. */
  datatype Verdict = Accepted | Rejected(field: Field)

  /**
   * A string that is present and non-empty: a required key under this validator's string rules,
   * and a request value that JavaScript's `!` treats as given.
   */
  predicate PresentString(v: Option<string>)
  {
    v.Some? && v.value != ""
  }

  function ValidateDevice(r: Record): (v: Verdict)
    ensures v == Accepted <==>
              r.deviceId.Some? && IsUuidV4(r.deviceId.value) && PresentString(r.name) && PresentString(r.token)
    ensures v == Rejected(DeviceIdField) <==> !(r.deviceId.Some? && IsUuidV4(r.deviceId.value))
    ensures r.deviceId.None? || r.name.None? || r.token.None? ==> v.Rejected?
  {
    if !(r.deviceId.Some? && IsUuidV4(r.deviceId.value)) then Rejected(DeviceIdField)
    else if !PresentString(r.name) then Rejected(NameField)
    else if !PresentString(r.token) then Rejected(TokenField)
    else Accepted
  }
}

=== FILE: wrappers.dfy ===
/** Option, the error classes the HTTP handlers answer with, and Result. */
module Wrappers {

  datatype Option<+T> = None | Some(value: T)

  /** The error responses of the handlers, one per HTTP status the routes send. */
  datatype Failure = BadRequest | Unauthorized | Forbidden | NotFound | Conflict | Internal
  {
    /** The HTTP status code sent with this failure. */
    function Code(): int
    {
      match this
      case BadRequest => 400
      case Unauthorized => 401
      case Forbidden => 403
      case NotFound => 404
      case Conflict => 409
      case Internal => 500
    }
  }

  /** A handler either succeeds with a value or answers with an error status and writes nothing. */
  datatype Result<+T> = Ok(value: T) | Err(failure: Failure)
}

/** Sequence searches with the semantics of `Array.prototype.find` / Mongo `findOne` (first match). */
module Seqs {
  import opened Wrappers

  /** Index of the first element satisfying `p`, or None when there is none. */
  function Find<T>(s: seq<T>, p: T -> bool): (r: Option<nat>)
    ensures r.Some? ==> r.value < |s| && p(s[r.value])
    ensures r.Some? ==> forall j :: 0 <= j < r.value ==> !p(s[j])
    ensures r.None? <==> forall j :: 0 <= j < |s| ==> !p(s[j])
    decreases |s|
  {
    if s == [] then None
    else if p(s[0]) then Some(0)
    else match Find(s[1..], p)
      case None => None
      case Some(i) => Some(i + 1)
  }

  /** The elements satisfying `p`, in their original order (`Array.prototype.filter`). */
  function Filter<T>(s: seq<T>, p: T -> bool): (r: seq<T>)
    ensures |r| <= |s|
    ensures forall i :: 0 <= i < |r| ==> r[i] in s && p(r[i])
    ensures forall j :: 0 <= j < |s| && p(s[j]) ==> s[j] in r
    ensures (exists j :: 0 <= j < |s| && !p(s[j])) ==> |r| < |s|
    decreases |s|
  {
    if s == [] then [] else (if p(s[0]) then [s[0]] else []) + Filter(s[1..], p)
  }

  /** Filtering out an element that occurs exactly at index k, and nowhere else, is deleting index k. */
  lemma {:induction false} FilterSingle<T>(s: seq<T>, p: T -> bool, k: nat)
    requires k < |s| && !p(s[k])
    requires forall j :: 0 <= j < |s| && j != k ==> p(s[j])
    ensures Filter(s, p) == s[..k] + s[k + 1..]
    decreases |s|
  {
    if k == 0 {
      calc {
        Filter(s, p);
        [] + Filter(s[1..], p);
        { FilterAll(s[1..], p); }
        s[1..];
        s[..0] + s[1..];
      }
    } else {
      var t := s[1..];
      calc {
        Filter(s, p);
        [s[0]] + Filter(t, p);
        { FilterSingle(t, p, k - 1); }
        [s[0]] + (t[..k - 1] + t[k..]);
        { assert t[..k - 1] == s[1..k] && t[k..] == s[k + 1..]; }
        [s[0]] + (s[1..k] + s[k + 1..]);
        { assert [s[0]] + s[1..k] == s[..k]; }
        s[..k] + s[k + 1..];
      }
    }
  }

  /** Filtering distributes over appending one element. */
  lemma {:induction false} FilterSnoc<T>(s: seq<T>, x: T, p: T -> bool)
    ensures Filter(s + [x], p) == Filter(s, p) + (if p(x) then [x] else [])
    decreases |s|
  {
    if s == [] {
      assert [] + [x] == [x];
    } else {
      assert (s + [x])[1..] == s[1..] + [x];
      FilterSnoc(s[1..], x, p);
    }
  }

  /** Filtering with a predicate every element satisfies changes nothing. */
  lemma {:induction false} FilterAll<T>(s: seq<T>, p: T -> bool)
    requires forall j :: 0 <= j < |s| ==> p(s[j])
    ensures Filter(s, p) == s
    decreases |s|
  {
    if s != [] {
      FilterAll(s[1..], p);
      assert [s[0]] + s[1..] == s;
    }
  }
}
